=== FILE: README.md ===
# auto-editor utilities and release-time doc rewrites, in Dafny

This project models two groups of pure text and integer logic from auto-editor.

The first group is the helpers of `auto_editor/usefulFunctions.py`:
- the clock formatter `prettyTime`;
- the colour parser `hex_to_bgr`;
- the list cleaner `cleanList`;
- the sentinel test `fNone`;
- the status-line fitter `bar`;
- the progress bar `ProgressBar`: its constructor, which renders index 0 once and turns the Unicode bar off when that render cannot be encoded, and its `tick`.

The second group is the release-time text transforms of `setup.py`:
- the version converter `numToNormal`;
- the release-note normaliser `changes`;
- the two passes of the `makedocs` command, which rewrite README.md and the change log line by line.

Each Python function becomes a pure Dafny function. A Python exception becomes an `Err` value of a `Result`. Time, terminal width, the local-time conversion, the macOS clock-format lookup and the output encoding become parameters. The properties are stated as postconditions and lemmas. Every operation except `fNone` is paired with one of these:
- an inverse, for `prettyTime`, `hex_to_bgr`, `numToNormal`, `str(int)` and `split`/`join`;
- an invariant it keeps, such as the bar width, the shape of the notes, or that the change log keeps every line;
- an independent description. `Changelog.Placed` places sections by position rather than with the flag. `Changelog.RewriteChangelog` follows the source loop and is proved to compute `Changelog.ChangelogText`.

`fNone` is a three-way equality test, and its contract states the set of sentinels it accepts.

Two members are stand-ins for the world outside the code. `Progress.Write` stands for `print`: it fails with UnicodeEncodeError exactly when the sink cannot encode a character of the line. `Progress.ClockPreference` stands for the macOS clock-format lookup: its answer is a parameter, and None means the lookup did not run or failed.

Files:
- `results.dfy`: `Option` and `Result`;
- `text.dfy`: the string builtins the code uses;
- `clock.dfy`: `prettyTime`;
- `colour.dfy`: `hex_to_bgr`;
- `cleaning.dfy`: `cleanList`;
- `sentinel.dfy`: `fNone`;
- `progress.dfy`: `bar` and `ProgressBar`;
- `version.dfy`: `numToNormal`;
- `notes.dfy`: `changes`;
- `readme.dfy`: the README pass;
- `changelog.dfy`: the CHANGELOG pass.

Four behaviours of the code that a reader may not expect:
- Only the constructor catches `UnicodeEncodeError`. A later `tick` on a sink that cannot encode the bar fails (`Progress.TickRejectsHourglass`).
- The percentage is computed from `index + 1`. So the first tick of a 200-step task shows 0.5% (`Progress.PercentExamples`).
- The machine record reports the clamped index, `min(index, total)`, and not `index + 1`.
- The constructor's handler also catches a machine record that fails to encode, and then prints the human-readable 0% line (`Progress.CreateMachineFallsBack`).

## Model

| member | source | states |
|---|---|---|
| Text.RStrip | setup.py:60 | `rstrip('\n')` gives a prefix of the text that does not end in a newline, and everything it cuts off is a newline |
| Text.ParseIntOfIntToString | setup.py:41 | `int` reads back every integer that `str` writes, negative ones included |
| Text.SplitOfJoin | auto_editor/usefulFunctions.py:189 | splitting a `~`-joined record at `~` gives back its parts, as long as no part contains the separator |
| Text.SplitAtSeparator | setup.py:40 | a '.' splits the version into the pieces on its left followed by the pieces on its right |
| Text.Repeat | auto_editor/usefulFunctions.py:139 | `' ' * n` has n characters, all spaces, and is empty when n is zero or negative |
| Clock.Pad2 | auto_editor/usefulFunctions.py:131-132 | `{n:02}` writes two decimal digits whose value is n |
| Clock.DisplayHour | auto_editor/usefulFunctions.py:126-129 | the 12-hour hour is in 1..12 and agrees with the 24-hour hour modulo 12 |
| Clock.PrettyTime | auto_editor/usefulFunctions.py:119-132 | 24-hour output is "HH:MM" (5 characters) and shows the hour; 12-hour output is 8 characters and shows an hour in 1..12 that matches the hour modulo 12; the suffix is "PM" exactly when the hour is at least 12 |
| Clock.ParsePrettyTime | auto_editor/usefulFunctions.py:119-132 | every formatted time, in both modes, reads back as the clock it came from |
| Clock.PrettyTimeOfParse | auto_editor/usefulFunctions.py:119-132 | every string that reads as a clock is exactly the formatted form of that clock, so the format is one-to-one |
| Clock.TwelveHourExamples | auto_editor/usefulFunctions.py:125-131 | midnight shows as "12:00 AM", 13:00 as "01:00 PM", and 12:05 as "12:05 PM" |
| Clock.DayHourExample | auto_editor/usefulFunctions.py:132 | 13:00 shows as "13:00" on the 24-hour clock |
| Colour.HexToBgr | auto_editor/usefulFunctions.py:235-242 | a code is accepted exactly when it is '#' followed by 3 or 6 hex digits; anything else is the invalid-code error; the result has three components in 0..255, and a six-digit code gives the pairs in the order blue, green, red |
| Colour.ShortCodeDoublesDigits | auto_editor/usefulFunctions.py:238-240 | "#xyz" is accepted exactly when "#xxyyzz" is, and both give the same colour |
| Colour.HexToBgrOfBgrToHex | auto_editor/usefulFunctions.py:240 | parsing the six-digit code of any colour gives that colour back |
| Colour.BgrToHexOfHexToBgr | auto_editor/usefulFunctions.py:240 | writing out a parsed six-digit code gives the code back in lower case |
| Colour.HexToBgrAsWritten | auto_editor/usefulFunctions.py:235-242 | the function as written: anything the regex rejects is the invalid-code error; a valid code gives the intended colour; a valid code followed by a newline gives the colour of the code when it has six digits and ValueError when it has three |
| Colour.AsWrittenAgreesWithoutNewline | auto_editor/usefulFunctions.py:237 | on every input that does not end in a newline, the function as written and the intended parser agree |
| Colour.AsWrittenOnTrailingNewline | auto_editor/usefulFunctions.py:237-240 | as written, a six-digit code followed by a newline is silently accepted with the colour of the code, and a three-digit code followed by a newline fails in `int` with ValueError; the intended parser rejects both as invalid |
| Colour.AsWrittenCrashesOnTrailingNewline | auto_editor/usefulFunctions.py:237-240 | "#fff" plus a newline passes the regex as written and then fails in `int` with ValueError; the intended parser rejects it as invalid |
| Cleaning.DeleteChars | auto_editor/usefulFunctions.py:106-107 | `translate` with a deletion table removes every character of the set, keeps every other character, and never lengthens the string |
| Cleaning.DeleteCharsRemovesAll | auto_editor/usefulFunctions.py:106-107 | no character of the set is left anywhere in the result |
| Cleaning.DeleteCharsConcat | auto_editor/usefulFunctions.py:106-107 | deletion works character by character, so it keeps the order of what remains |
| Cleaning.DeleteCharsOfClean | auto_editor/usefulFunctions.py:106-107 | a string with no character of the set is left unchanged |
| Cleaning.CleanList | auto_editor/usefulFunctions.py:105-108 | the result is no longer than the input and holds no empty string and no character of `rm_chars` |
| Cleaning.CleanListFromInput | auto_editor/usefulFunctions.py:107-108 | every string of the result is the cleaned form of some input string |
| Cleaning.CleanListKeepsNonEmpty | auto_editor/usefulFunctions.py:108 | every input whose cleaned form is not empty appears in the result, cleaned |
| Cleaning.CleanListConcat | auto_editor/usefulFunctions.py:105-108 | cleaning a concatenation is concatenating the cleaned lists, so input order is kept |
| Cleaning.CleanListIdempotent | auto_editor/usefulFunctions.py:105-108 | cleaning twice is the same as cleaning once |
| Sentinel.FNone | auto_editor/usefulFunctions.py:244-245 | true exactly for None, 'none' and 'unset' |
| Progress.PrefixTo | auto_editor/usefulFunctions.py:137 | Python's `s[:k]` is a prefix of length min(k, len) for k >= 0, and for negative k it drops that many characters from the end |
| Progress.Bar | auto_editor/usefulFunctions.py:134-139 | for termsize >= 2 the line never exceeds termsize - 2 characters; it is a prefix of the composed bar, or the composed bar followed only by spaces, with the exact lengths for cutting and padding |
| Progress.RoundHalfEven | auto_editor/usefulFunctions.py:178 | `round` gives an integer within half a unit of the fraction, and on a tie the even one |
| Progress.RoundHalfEvenMonotone | auto_editor/usefulFunctions.py:178 | rounding never reverses the order of two fractions |
| Progress.RoundHalfEvenUnique | auto_editor/usefulFunctions.py:178 | an integer strictly within half a unit of the fraction is the rounded value |
| Progress.RoundHalfEvenBetween | auto_editor/usefulFunctions.py:178 | a fraction between two integers rounds to a value between them |
| Progress.PercentTenths | auto_editor/usefulFunctions.py:178 | `percentDone` is between 0 and 100.0, and it is exactly 100 once index + 1 reaches the total |
| Progress.PercentMonotone | auto_editor/usefulFunctions.py:178 | the percentage never goes down as the index grows |
| Progress.PercentExamples | auto_editor/usefulFunctions.py:178 | the first tick of a one-step task is 100%, the first tick of 200 is 0.5%, and tick 99 of 200 is 50% |
| Progress.Eta | auto_editor/usefulFunctions.py:179-184 | at 0% the rate is forced to 0, so the ETA is the start time; otherwise the elapsed time is extrapolated linearly to 100%, and at 100% the ETA is the current time |
| Progress.Trunc | auto_editor/usefulFunctions.py:188 | `int` of a float truncates toward zero |
| Progress.PercentText | auto_editor/usefulFunctions.py:202 | the percentage prints as "100" when it is full, and otherwise as digits, a point and one digit that read back as the value, with no leading zero before a whole part of two digits, as Python's float repr prints it |
| Progress.BarLength | auto_editor/usefulFunctions.py:196 | the bar has at least one glyph |
| Progress.DoneGlyphs | auto_editor/usefulFunctions.py:197-199 | between 0 and barLen glyphs are done: none at 0%, all at 100% |
| Progress.Tick | auto_editor/usefulFunctions.py:173-202 | a hidden bar prints nothing; a total of 0 raises ZeroDivisionError; any other failure is a UnicodeEncodeError; machine mode and the Unicode bar overwrite the line, and the plain mode commits it |
| Progress.MachineRecordFields | auto_editor/usefulFunctions.py:186-190 | the machine record splits back at '~' into exactly title, min(index, total), total, the start time and the truncated ETA |
| Progress.TickMachineRecord | auto_editor/usefulFunctions.py:186-191 | a machine-mode tick succeeds exactly when the sink encodes the record `title~index~total~beginTime~raw`, then overwrites the line with it, and otherwise raises UnicodeEncodeError; the record splits at '~' into exactly the title, min(index, total), the total, the start time's text and the truncated ETA; the index is at most the total, and at the last index the ETA is the current time |
| Progress.TickBarFits | auto_editor/usefulFunctions.py:195-200 | a Unicode-bar tick succeeds exactly when the sink encodes the drawn bar, then overwrites the line with it, and otherwise raises UnicodeEncodeError; the drawn bar has at most termsize - 2 characters |
| Progress.CompleteBarIsSolid | auto_editor/usefulFunctions.py:196-199 | at the last index every glyph of the bar is done and the percentage reads "100" |
| Progress.PlainLineAscii | auto_editor/usefulFunctions.py:202 | the plain progress line holds only ASCII characters |
| Progress.TickFallbackIsPlain | auto_editor/usefulFunctions.py:201-202 | with the Unicode bar off, a human-mode tick on a sink that encodes ASCII commits the plain percentage-and-ETA line |
| Progress.UnicodeLineShowsHourglass | auto_editor/usefulFunctions.py:135-137 | on a terminal at least 5 columns wide, the drawn bar has the hourglass as its third character |
| Progress.TickRejectsHourglass | auto_editor/usefulFunctions.py:195-200 | on a terminal at least 5 columns wide, a Unicode-bar tick on a sink that cannot encode the hourglass raises UnicodeEncodeError, because tick has no handler |
| Progress.Create | auto_editor/usefulFunctions.py:144-171 | the constructed bar stores its arguments; it uses the 24-hour clock exactly when, in human mode, the clock format read from the system lacks 'a'; when the first `tick(0)` succeeds, the Unicode bar stays on and that render is the output; the Unicode bar is off only when that render raised UnicodeEncodeError, and then a plain line was committed; when that render raised UnicodeEncodeError, the handler commits the plain 0% line and turns the Unicode bar off if the sink encodes that line, and otherwise the error leaves the constructor; a hidden bar prints nothing; a zero total raises ZeroDivisionError |
| Progress.CreateAfterRejection | auto_editor/usefulFunctions.py:166-171 | in human or machine mode, when the first render fails to encode and the plain 0% line does not, the constructor prints that line and returns the bar with the Unicode bar off |
| Progress.CreateFallsBack | auto_editor/usefulFunctions.py:163-171 | for a visible human-mode bar with a positive total, on a terminal at least 5 columns wide and a sink that encodes ASCII but not the hourglass, the constructor succeeds, turns the Unicode bar off, and prints "   0% done ETA " plus the start time |
| Progress.CreateMachineFallsBack | auto_editor/usefulFunctions.py:166-191 | for a visible machine-mode bar with a positive total, on a sink that encodes ASCII but not some character of the title, the first record fails to encode, so the constructor also prints the plain 0% line and turns the Unicode bar off |
| Progress.AsciiWrites | auto_editor/usefulFunctions.py:201-202 | a sink that encodes ASCII prints every ASCII line |
| Version.LetterAt | setup.py:39-41 | `alphabet[k]` succeeds exactly for k in -26..25, gives the letter k places from 'a' counting modulo 26, and otherwise raises IndexError |
| Version.NumToNormal | setup.py:33-41 | the conversion succeeds exactly when there are at least three fields and the third is an integer n in -25..26; a non-integer third field is ValueError; otherwise it is IndexError; on success the name is field 0, 'w', field 1 and the lower-case letter (n - 1) mod 26 places after 'a', so 1 gives 'a' and 0 gives 'z' |
| Version.NumToNormalExample | setup.py:36 | "20.10.1.0" becomes "20w10a" |
| Version.FirstReleaseOfWeek | setup.py:33-41 | any four-field version whose third field is "1" becomes year, 'w', week and 'a' |
| Version.PipVersionName | setup.py:14-18 | the version this script ships, "20.33.1.0", becomes "20w33a" |
| Version.LetterForNumber | setup.py:41 | n in 1..26 gives the n-th letter, 0 wraps to 'z', and negative n counts back from 'z' |
| Version.NumToNormalIgnoresTail | setup.py:40-41 | anything after the third field is ignored |
| Version.ParseNormal | setup.py:33-41 | a name that reads back splits into a 'w'-free year, a week and a number in 1..26, and is exactly year, 'w', week and that letter |
| Version.ParseNormalOfNumToNormal | setup.py:33-41 | converting a version with a number in 1..26 and reading the name back recovers the year, the week and the number |
| Version.NumToNormalOfParseNormal | setup.py:33-41 | reading a name back and converting its parts again gives the same name |
| Notes.RemoveNewlines | setup.py:28 | removing newlines leaves none and keeps every '*' |
| Notes.RemoveIndentsLead | setup.py:29 | removing runs of four spaces shortens a leading run of k spaces to k mod 4 |
| Notes.RemoveIndents | setup.py:29 | after removing runs of four spaces, no four consecutive spaces remain |
| Notes.RemoveIndentsKeeps | setup.py:29 | removing runs of four spaces keeps the count of every other character |
| Notes.OpenBullets | setup.py:30 | in a newline-free text, putting a newline before every '*' makes every newline open a bullet, gives one newline per '*', and creates no run of four spaces |
| Notes.NormalizeOpensBullets | setup.py:21-31 | for any note text, every newline of the output is followed by '*', and there are as many newlines as '*'s as in the input |
| Notes.NormalizeRemovesIndents | setup.py:21-31 | for any note text, no run of four spaces survives |
| Notes.ChangesShape | setup.py:21-31 | the notes of this release have every newline opening a bullet, one newline per bullet, and no run of four spaces |
| Readme.NewEntryKinds | setup.py:50-54 | the new badge is again a badge line and the new heading is again a heading line |
| Readme.Entries | setup.py:47-57 | the pass keeps at most as many entries as lines, leaves no bullet, and every badge and heading it writes is the one for the new version |
| Readme.KeepsPlainLines | setup.py:56-57 | every other line is kept, unchanged and in order, and nothing else becomes such a line |
| Readme.ReplacesOneForOne | setup.py:50-56 | each badge and each heading is replaced by exactly one entry of the same kind; every bullet is dropped; the entry count is the line count minus the bullets |
| Readme.EntriesConcat | setup.py:49-57 | the entries of two blocks of lines are those of the first followed by those of the second, so every replacement stands where its line stood |
| Readme.EntriesOfLine | setup.py:50-57 | a badge line becomes the new badge, a heading line the new heading with the notes, a bullet nothing, and any other line itself |
| Readme.EntriesIdempotent | setup.py:47-57 | running the pass again for the same version changes nothing |
| Readme.ReadmeText | setup.py:59-60 | the written text is a prefix of the accumulated text, does not end in a newline, and only newlines are cut off |
| Changelog.LineClasses | setup.py:67-72 | the change-log title is never a version line, and a line for the new version is a version line |
| Changelog.ChangelogText | setup.py:75-76 | the written text is a prefix of the accumulated text, does not end in a newline, and everything cut off is a newline |
| Changelog.PiecesStep | setup.py:65-73 | one line of the loop appends the new section when the flag is set and the line is a stale version line, then the line; the flag is updated for the next line |
| Changelog.StepLine | setup.py:66-73 | the body of the source loop appends the same text and leaves the same flag as the functional model |
| Changelog.AccumulateChangelog | setup.py:62-73 | the source loop, run over all lines, accumulates exactly the rendered pieces of the functional model |
| Changelog.RewriteChangelog | setup.py:62-76 | the whole pass with its trailing newlines stripped equals the functional model and does not end in a newline |
| Changelog.KeepsAllLines | setup.py:71 | every input line is written, unchanged and in order |
| Changelog.SectionsPerTitle | setup.py:64-73 | the pass writes at most one new section per title line, plus one if it starts armed |
| Changelog.AtMostOneSection | setup.py:62-73 | a change log with one title line gets at most one new section |
| Changelog.ArmedStep | setup.py:64-73 | the `checkNext` flag is set before line j exactly when an earlier line is the title and no version line comes between them |
| Changelog.PiecesArePlaced | setup.py:64-73 | the new section goes before line j exactly when line j is a version line other than the new version's and the flag is armed there |
| Changelog.SectionBeforeStaleVersion | setup.py:69-71 | every new section is immediately followed by the stale version line it precedes |
| Changelog.PiecesConcat | setup.py:65-73 | the pass over two blocks of lines is the pass over the first, then the pass over the second, starting from the flag the first leaves |
| Changelog.QuietWithoutTitle | setup.py:64-73 | without a title line, an unarmed pass writes no section and stays unarmed |
| Changelog.SectionIsQuiet | setup.py:67-70 | a section that opens with the new version's heading and holds no title line passes through the pass without a new section and disarms it |
| Changelog.RerunAddsNoSection | setup.py:62-73 | rerunning the pass for the same version, on the lines it wrote, adds no section |
| Changelog.SectionTextIsItsLines | setup.py:70 | the inserted section's text is its lines, each ended by a newline |
| Changelog.SectionLinesShape | setup.py:70 | with bullet-shaped notes, the inserted section opens with the new version's heading and holds no title line |
| Changelog.RerunWithReleaseNotes | setup.py:62-73 | with this release's notes, a second run of the pass adds no second section |

## Left out

- Console and file I/O: `print`'s `end` and `flush` become the `Output` variants. The README and change-log files are given as their lines. `splitlines`, which also splits at '\r' and other line boundaries, is not modelled.
- `time()`, `time.localtime`, `get_terminal_size`, `platform.system` and the macOS `defaults read` clock-format lookup are parameters. `Clock.PrettyTime` takes the local hour and minute that `localtime` would produce.
- Progress.PercentTenths: computes `round((index+1)/total*100, 1)` on the exact fraction. Python rounds the binary float, which can differ at ties.
- Progress.DoneGlyphs: rounds `percentDone / (100 / barLen)` on exact fractions, so float rounding at ties is not modelled.
- Progress.Eta: uses exact real arithmetic for the rate and the ETA. The float text of `beginTime` in the machine record is taken as given (`Instant.repr`), not computed.
- Progress.Tick: requires a non-negative index and total. Negative or float arguments are outside the model.
- Progress.Create: requires a non-negative total, for the same reason.
- Progress.Write: treats the output encoding as a per-character test. Encoders that fail on a combination of characters are not modelled.
- Text.ParseInt: reads only an optional sign and ASCII digits. Python's `int` also accepts surrounding whitespace, underscores between digits and non-ASCII digits.
- Readme.EntriesIdempotent: stated on the entries the pass writes. Re-reading the written file splits the heading entry, which holds the notes, into several lines, and that re-split is not modelled.
- Changelog.AtMostOneSection: holds for a change log with one title line. With several title lines, the pass can insert one section per title (`Changelog.SectionsPerTitle`).
- `hex_to_bgr`'s `log.error` call is abstracted as the `InvalidHexCode` error value, whatever the logger does. auto-editor's `Log.error` never returns, so no `None` result is modelled.
- The rest of `auto_editor/usefulFunctions.py` is not part of this model. That covers `Log` (console output, and `conwrite`, which calls itself without end), `Timer`, `pipeToConsole`, `sep`, `getNewLength`, `humanReadableTime` and `openWithSystemDefault`. These are I/O, subprocesses, platform detection or float arithmetic.
- The rest of `setup.py`: `sys.argv` dispatch, `publish`'s shell commands and the `setuptools.setup` metadata call. These are process and packaging side effects.

## Findings

| source | as written | input that shows it | evidently intended | confidence | as-written member | corrected member |
|---|---|---|---|---|---|---|
| auto_editor/usefulFunctions.py:237-240 | the guard `re.match` with `$` also matches just before a final newline, so a code followed by a newline passes the check | "#fff\n": passes the guard, is not shorter than 5, and `int('', 16)` raises ValueError instead of the invalid-code error; "#rrggbb\n" is silently accepted with the colour of "#rrggbb", since the slices never reach the newline | accept only '#' followed by exactly 3 or 6 hex digits, and report everything else as an invalid hex code | not executed | Colour.AsWrittenOnTrailingNewline | Colour.HexToBgr |

=== FILE: changelog.dfy ===
/** The CHANGELOG pass of the `makedocs` command in setup.py. The lines are
    copied in order; after the change-log title, the first "## Version"
    line arms nothing more, and if it is not already the section of the new
    version, the new section is written just before it. The document is
    rebuilt as text and trailing newlines are stripped.

    `Pieces` is the pass as a function of the `checkNext` flag; the method
    `RewriteChangelog` follows the source loop and is proved to compute the
    same text. */
module Changelog {
  import opened Text
  import Notes

  const LogTitle: string := "# " + "Auto-Editor " + "Change Log"
  const VersionPrefix: string := "## Version"

  predicate IsTitle(line: string) {
    StartsWith(line, LogTitle)
  }

  predicate IsVersion(line: string) {
    StartsWith(line, VersionPrefix)
  }

  /** The line already opens the section of version vr. */
  predicate IsCurrent(line: string, vr: string) {
    StartsWith(line, VersionPrefix + " " + vr)
  }

  lemma LineClasses(line: string, vr: string)
    ensures IsTitle(line) ==> !IsVersion(line)
    ensures IsCurrent(line, vr) ==> IsVersion(line)
  {
    if IsTitle(line) {
      assert line[1] == LogTitle[1] == ' ';
      assert VersionPrefix[1] == '#';
    }
    if IsCurrent(line, vr) {
      assert (VersionPrefix + " " + vr)[..|VersionPrefix|] == VersionPrefix;
      assert line[..|VersionPrefix|] == (VersionPrefix + " " + vr)[..|VersionPrefix|];
    }
  }

  /** What the pass writes for a line: either the line itself, or the new
      section just before it. */
  datatype Piece = Copied(line: string) | Inserted

  /** With the flag set, a stale version line receives the new section. */
  predicate Inserts(check: bool, line: string, vr: string) {
    check && IsVersion(line) && !IsCurrent(line, vr)
  }

  /** The flag after a line: a version line clears it, the title sets it. */
  function NextCheck(check: bool, line: string): bool {
    IsTitle(line) || (check && !IsVersion(line))
  }

  /** The pass over `lines`, starting with the flag `check`. */
  function Pieces(check: bool, lines: seq<string>, vr: string): seq<Piece>
    decreases |lines|
  {
    if lines == [] then []
    else
      (if Inserts(check, lines[0], vr) then [Inserted] else [])
      + [Copied(lines[0])]
      + Pieces(NextCheck(check, lines[0]), lines[1..], vr)
  }

  /** The flag after the pass has read `lines`. */
  function CheckAfter(check: bool, lines: seq<string>): bool
    decreases |lines|
  {
    if lines == [] then check else CheckAfter(NextCheck(check, lines[0]), lines[1..])
  }

  /** The text of the new section: its heading, the notes and a blank line. */
  function SectionText(vr: string, notes: string): string {
    VersionPrefix + " " + vr + notes + "\n\n"
  }

  /** The text the pass accumulates. */
  function PieceText(piece: Piece, vr: string, notes: string): string {
    match piece
    case Copied(line) => line + "\n"
    case Inserted => SectionText(vr, notes)
  }

  function Render(pieces: seq<Piece>, vr: string, notes: string): string {
    if pieces == [] then "" else PieceText(pieces[0], vr, notes) + Render(pieces[1..], vr, notes)
  }

  lemma RenderCons(piece: Piece, rest: seq<Piece>, vr: string, notes: string)
    ensures Render([piece] + rest, vr, notes) == PieceText(piece, vr, notes) + Render(rest, vr, notes)
  {
    assert ([piece] + rest)[0] == piece && ([piece] + rest)[1..] == rest;
  }

  /** The text written back, without its trailing newlines. */
  function ChangelogText(lines: seq<string>, vr: string, notes: string): (r: string)
    ensures r == [] || r[|r| - 1] != '\n'
    ensures StartsWith(Render(Pieces(false, lines, vr), vr, notes), r)
    ensures forall i :: |r| <= i < |Render(Pieces(false, lines, vr), vr, notes)| ==> Render(Pieces(false, lines, vr), vr, notes)[i] == '\n'
  {
    RStrip(Render(Pieces(false, lines, vr), vr, notes), '\n')
  }

  lemma {:induction false} RenderConcat(a: seq<Piece>, b: seq<Piece>, vr: string, notes: string)
    ensures Render(a + b, vr, notes) == Render(a, vr, notes) + Render(b, vr, notes)
  {
    if a == [] {
      assert a + b == b;
    } else {
      assert (a + b)[0] == a[0];
      assert (a + b)[1..] == a[1..] + b;
      RenderConcat(a[1..], b, vr, notes);
    }
  }

  /** The text the pass still writes from line i on. */
  function Remaining(check: bool, lines: seq<string>, i: nat, vr: string, notes: string): string
    requires i <= |lines|
  {
    Render(Pieces(check, lines[i..], vr), vr, notes)
  }

  /** One line of the pass: the text it appends and the flag it leaves. */
  lemma PiecesStep(check: bool, lines: seq<string>, i: nat, vr: string, notes: string)
    requires i < |lines|
    ensures Remaining(check, lines, i, vr, notes)
         == (if Inserts(check, lines[i], vr) then SectionText(vr, notes) else "") + lines[i] + "\n"
            + Remaining(NextCheck(check, lines[i]), lines, i + 1, vr, notes)
  {
    PiecesAt(check, lines, i, vr);
    RenderStep(Inserts(check, lines[i], vr), lines[i], Pieces(NextCheck(check, lines[i]), lines[i + 1..], vr), vr, notes);
  }

  /** The text of one line's pieces followed by the rest. */
  lemma RenderStep(inserts: bool, line: string, rest: seq<Piece>, vr: string, notes: string)
    ensures Render((if inserts then [Inserted] else []) + ([Copied(line)] + rest), vr, notes)
         == (if inserts then SectionText(vr, notes) else "") + line + "\n" + Render(rest, vr, notes)
  {
    RenderCons(Copied(line), rest, vr, notes);
    if inserts {
      RenderCons(Inserted, [Copied(line)] + rest, vr, notes);
    } else {
      assert [] + ([Copied(line)] + rest) == [Copied(line)] + rest;
    }
  }

  /** The pieces from line i on: those of line i, then the rest. */
  lemma PiecesAt(check: bool, lines: seq<string>, i: nat, vr: string)
    requires i < |lines|
    ensures Pieces(check, lines[i..], vr)
         == (if Inserts(check, lines[i], vr) then [Inserted] else [])
            + ([Copied(lines[i])] + Pieces(NextCheck(check, lines[i]), lines[i + 1..], vr))
  {
    var tail := lines[i..];
    assert tail[0] == lines[i] && tail[1..] == lines[i + 1..];
  }

  /** The body of the source loop for one line. */
  method StepLine(newDoc: string, checkNext: bool, line: string, vr: string, notes: string)
    returns (doc: string, check: bool)
    ensures doc == newDoc + (if Inserts(checkNext, line, vr) then SectionText(vr, notes) else "") + line + "\n"
    ensures check == NextCheck(checkNext, line)
  {
    doc := newDoc;
    check := checkNext;
    if check {
      if StartsWith(line, VersionPrefix) {
        check := false;
        if !StartsWith(line, VersionPrefix + " " + vr) {
          doc := doc + SectionText(vr, notes);
        }
      }
    }
    doc := doc + line + "\n";
    if StartsWith(line, LogTitle) {
      check := true;
    }
  }

  /** The loop of the source: `newDoc` grows line by line while `checkNext`
      follows the title and version lines; it accumulates the text of the
      functional model. */
  method AccumulateChangelog(lines: seq<string>, vr: string, notes: string) returns (newDoc: string)
    ensures newDoc == Render(Pieces(false, lines, vr), vr, notes)
  {
    ghost var total := Render(Pieces(false, lines, vr), vr, notes);
    assert lines[0..] == lines;
    newDoc := "";
    var checkNext := false;
    var i := 0;
    while i < |lines|
      invariant 0 <= i <= |lines|
      invariant newDoc + Remaining(checkNext, lines, i, vr, notes) == total
    {
      StepKeepsTotal(newDoc, checkNext, lines, i, vr, notes, total);
      newDoc, checkNext := StepLine(newDoc, checkNext, lines[i], vr, notes);
      i := i + 1;
    }
    assert Remaining(checkNext, lines, i, vr, notes) == "";
  }

  /** The loop invariant survives one line. */
  lemma StepKeepsTotal(start: string, check: bool, lines: seq<string>, i: nat, vr: string, notes: string, total: string)
    requires i < |lines|
    requires start + Remaining(check, lines, i, vr, notes) == total
    ensures start + (if Inserts(check, lines[i], vr) then SectionText(vr, notes) else "") + lines[i] + "\n"
            + Remaining(NextCheck(check, lines[i]), lines, i + 1, vr, notes) == total
  {
    PiecesStep(check, lines, i, vr, notes);
  }

  /** The whole pass: the accumulated text with its trailing newlines
      stripped, which is what is written back. */
  method RewriteChangelog(lines: seq<string>, vr: string, notes: string) returns (doc: string)
    ensures doc == ChangelogText(lines, vr, notes)
    ensures doc == [] || doc[|doc| - 1] != '\n'
  {
    var newDoc := AccumulateChangelog(lines, vr, notes);
    doc := RStrip(newDoc, '\n');
  }

  // ----- What the pass keeps -----

  function Originals(pieces: seq<Piece>): seq<string> {
    if pieces == [] then []
    else (if pieces[0].Copied? then [pieces[0].line] else []) + Originals(pieces[1..])
  }

  function InsertedCount(pieces: seq<Piece>): nat {
    if pieces == [] then 0 else (if pieces[0] == Inserted then 1 else 0) + InsertedCount(pieces[1..])
  }

  function TitleCount(lines: seq<string>): nat {
    if lines == [] then 0 else (if IsTitle(lines[0]) then 1 else 0) + TitleCount(lines[1..])
  }

  /** Every input line is written, unchanged and in order. */
  lemma {:induction false} KeepsAllLines(check: bool, lines: seq<string>, vr: string)
    ensures Originals(Pieces(check, lines, vr)) == lines
    decreases |lines|
  {
    if lines != [] {
      KeepsAllLines(NextCheck(check, lines[0]), lines[1..], vr);
      OriginalsStep(check, lines, vr);
    }
  }

  /** The originals of the pass: the first line, then those of the rest. */
  lemma OriginalsStep(check: bool, lines: seq<string>, vr: string)
    requires lines != []
    ensures Originals(Pieces(check, lines, vr))
         == [lines[0]] + Originals(Pieces(NextCheck(check, lines[0]), lines[1..], vr))
  {
    var rest := Pieces(NextCheck(check, lines[0]), lines[1..], vr);
    var r := Pieces(check, lines, vr);
    if Inserts(check, lines[0], vr) {
      assert r[1..] == [Copied(lines[0])] + rest;
      assert r[1..][1..] == rest;
    } else {
      assert r[1..] == rest;
    }
  }

  /** Each section needs the flag, and only the title sets it: the pass
      writes at most one section per title line (plus one if it starts
      armed). */
  lemma {:induction false} SectionsPerTitle(check: bool, lines: seq<string>, vr: string)
    ensures InsertedCount(Pieces(check, lines, vr)) <= (if check then 1 else 0) + TitleCount(lines)
    decreases |lines|
  {
    if lines != [] {
      var next := NextCheck(check, lines[0]);
      SectionsPerTitle(next, lines[1..], vr);
      InsertedCountStep(check, lines, vr);
      LineClasses(lines[0], vr);
    }
  }

  /** The sections of the pass: one for the first line if it receives one,
      then those of the rest. */
  lemma InsertedCountStep(check: bool, lines: seq<string>, vr: string)
    requires lines != []
    ensures InsertedCount(Pieces(check, lines, vr))
         == (if Inserts(check, lines[0], vr) then 1 else 0)
            + InsertedCount(Pieces(NextCheck(check, lines[0]), lines[1..], vr))
  {
    var step := (if Inserts(check, lines[0], vr) then [Inserted] else []) + [Copied(lines[0])];
    var rest := Pieces(NextCheck(check, lines[0]), lines[1..], vr);
    assert Pieces(check, lines, vr) == step + rest;
    InsertedCountConcat(step, rest);
    if Inserts(check, lines[0], vr) {
      InsertedCountConcat([Inserted], [Copied(lines[0])]);
    }
  }

  /** A change log with one title line gets at most one new section. */
  lemma AtMostOneSection(lines: seq<string>, vr: string)
    requires TitleCount(lines) <= 1
    ensures InsertedCount(Pieces(false, lines, vr)) <= 1
  {
    SectionsPerTitle(false, lines, vr);
  }

  // ----- Where the section goes -----

  /** The flag is set before line j: some earlier line is the title and no
      version line lies between it and j. */
  ghost predicate Armed(lines: seq<string>, j: nat)
    requires j <= |lines|
  {
    exists i :: 0 <= i < j && IsTitle(lines[i]) && forall m :: i < m < j ==> !IsVersion(lines[m])
  }

  lemma ArmedStep(lines: seq<string>, j: nat)
    requires j < |lines|
    ensures Armed(lines, j + 1) <==> NextCheck(Armed(lines, j), lines[j])
  {
    if Armed(lines, j + 1) {
      var i :| 0 <= i < j + 1 && IsTitle(lines[i]) && forall m :: i < m < j + 1 ==> !IsVersion(lines[m]);
      if i < j {
        assert !IsVersion(lines[j]);
        assert Armed(lines, j);
      }
    }
    if NextCheck(Armed(lines, j), lines[j]) {
      if !IsTitle(lines[j]) {
        var i :| 0 <= i < j && IsTitle(lines[i]) && forall m :: i < m < j ==> !IsVersion(lines[m]);
        assert forall m :: i < m < j + 1 ==> !IsVersion(lines[m]);
      }
    }
  }

  /** The pieces described by position: a section goes before line j exactly
      when line j is a version line other than vr's and the flag is set
      there. */
  ghost function Placed(lines: seq<string>, vr: string, j: nat): seq<Piece>
    requires j <= |lines|
    decreases |lines| - j
  {
    if j == |lines| then []
    else
      (if Armed(lines, j) && IsVersion(lines[j]) && !IsCurrent(lines[j], vr) then [Inserted] else [])
      + [Copied(lines[j])]
      + Placed(lines, vr, j + 1)
  }

  lemma {:induction false} PiecesFrom(lines: seq<string>, vr: string, j: nat)
    requires j <= |lines|
    ensures Pieces(Armed(lines, j), lines[j..], vr) == Placed(lines, vr, j)
    decreases |lines| - j
  {
    if j < |lines| {
      ArmedStep(lines, j);
      PiecesFrom(lines, vr, j + 1);
      assert lines[j..][1..] == lines[j + 1..];
    }
  }

  /** The new section is written before exactly those version lines that are
      not vr's own and that come first after a title line. */
  lemma PiecesArePlaced(lines: seq<string>, vr: string)
    ensures Pieces(false, lines, vr) == Placed(lines, vr, 0)
  {
    PiecesFrom(lines, vr, 0);
    assert lines[0..] == lines;
  }

  /** Every section is followed by the stale version line it precedes. */
  predicate SectionsPrecedeStaleVersions(pieces: seq<Piece>, vr: string) {
    pieces == [] ||
    ((pieces[0] == Inserted ==>
        2 <= |pieces| && pieces[1].Copied? && IsVersion(pieces[1].line) && !IsCurrent(pieces[1].line, vr))
     && SectionsPrecedeStaleVersions(pieces[1..], vr))
  }

  lemma {:induction false} SectionBeforeStaleVersion(check: bool, lines: seq<string>, vr: string)
    ensures SectionsPrecedeStaleVersions(Pieces(check, lines, vr), vr)
    decreases |lines|
  {
    if lines != [] {
      var rest := Pieces(NextCheck(check, lines[0]), lines[1..], vr);
      SectionBeforeStaleVersion(NextCheck(check, lines[0]), lines[1..], vr);
      var r := Pieces(check, lines, vr);
      if Inserts(check, lines[0], vr) {
        assert r[1..] == [Copied(lines[0])] + rest;
        assert r[1..][1..] == rest;
      } else {
        assert r[1..] == rest;
      }
    }
  }

  // ----- Running the pass again -----

  /** The lines of a written document: each section becomes its lines. */
  function Expand(pieces: seq<Piece>, section: seq<string>): seq<string> {
    if pieces == [] then []
    else
      (match pieces[0]
       case Copied(line) => [line]
       case Inserted => section)
      + Expand(pieces[1..], section)
  }

  lemma {:induction false} PiecesConcat(check: bool, a: seq<string>, b: seq<string>, vr: string)
    ensures Pieces(check, a + b, vr) == Pieces(check, a, vr) + Pieces(CheckAfter(check, a), b, vr)
    decreases |a|
  {
    if a == [] {
      assert a + b == b;
    } else {
      assert (a + b)[0] == a[0];
      assert (a + b)[1..] == a[1..] + b;
      PiecesConcat(NextCheck(check, a[0]), a[1..], b, vr);
    }
  }

  /** Without a title line, an unarmed pass writes no section and stays
      unarmed. */
  lemma {:induction false} QuietWithoutTitle(lines: seq<string>, vr: string)
    requires forall k :: 0 <= k < |lines| ==> !IsTitle(lines[k])
    ensures InsertedCount(Pieces(false, lines, vr)) == 0
    ensures !CheckAfter(false, lines)
  {
    if lines != [] {
      QuietWithoutTitle(lines[1..], vr);
      var r := Pieces(false, lines, vr);
      assert r[1..] == Pieces(false, lines[1..], vr);
    }
  }

  /** A section whose first line is vr's heading and that holds no title
      line passes through a second pass without a new section. */
  lemma SectionIsQuiet(check: bool, section: seq<string>, vr: string)
    requires 1 <= |section| && IsCurrent(section[0], vr)
    requires forall k :: 0 <= k < |section| ==> !IsTitle(section[k])
    ensures InsertedCount(Pieces(check, section, vr)) == 0
    ensures !CheckAfter(check, section)
  {
    LineClasses(section[0], vr);
    assert NextCheck(check, section[0]) == false;
    QuietWithoutTitle(section[1..], vr);
    var r := Pieces(check, section, vr);
    assert r[1..] == Pieces(false, section[1..], vr);
  }

  lemma InsertedCountConcat(a: seq<Piece>, b: seq<Piece>)
    ensures InsertedCount(a + b) == InsertedCount(a) + InsertedCount(b)
  {
    if a == [] {
      assert a + b == b;
    } else {
      assert (a + b)[1..] == a[1..] + b;
      InsertedCountConcat(a[1..], b);
    }
  }

  lemma {:induction false} ExpandConcat(a: seq<Piece>, b: seq<Piece>, section: seq<string>)
    ensures Expand(a + b, section) == Expand(a, section) + Expand(b, section)
  {
    if a == [] {
      assert a + b == b;
    } else {
      assert (a + b)[0] == a[0];
      assert (a + b)[1..] == a[1..] + b;
      ExpandConcat(a[1..], b, section);
    }
  }

  /** What the first pass writes for its first line, as lines. */
  lemma ExpandStep(check: bool, lines: seq<string>, vr: string, section: seq<string>)
    requires lines != []
    ensures Expand(Pieces(check, lines, vr), section)
         == (if Inserts(check, lines[0], vr) then section else []) + [lines[0]]
            + Expand(Pieces(NextCheck(check, lines[0]), lines[1..], vr), section)
  {
    var step := (if Inserts(check, lines[0], vr) then [Inserted] else []) + [Copied(lines[0])];
    var rest := Pieces(NextCheck(check, lines[0]), lines[1..], vr);
    assert Pieces(check, lines, vr) == step + rest;
    ExpandConcat(step, rest, section);
    if Inserts(check, lines[0], vr) {
      assert step == [Inserted] + [Copied(lines[0])];
      ExpandConcat([Inserted], [Copied(lines[0])], section);
    }
  }

  /** A line that receives no section adds no section to the count. */
  lemma CopiedFirst(check: bool, line: string, tail: seq<string>, vr: string)
    requires !Inserts(check, line, vr)
    ensures InsertedCount(Pieces(check, [line] + tail, vr)) == InsertedCount(Pieces(NextCheck(check, line), tail, vr))
  {
    var lines := [line] + tail;
    assert lines[0] == line && lines[1..] == tail;
    var r := Pieces(check, lines, vr);
    assert r == [Copied(line)] + Pieces(NextCheck(check, line), tail, vr);
    assert r[1..] == Pieces(NextCheck(check, line), tail, vr);
  }

  /** Rerunning the pass for the same version on the lines it wrote adds no
      second section, provided the section opens with vr's heading and holds
      no title line. */
  lemma {:induction false} RerunAddsNoSection(check: bool, lines: seq<string>, vr: string, section: seq<string>)
    requires 1 <= |section| && IsCurrent(section[0], vr)
    requires forall k :: 0 <= k < |section| ==> !IsTitle(section[k])
    ensures InsertedCount(Pieces(check, Expand(Pieces(check, lines, vr), section), vr)) == 0
    decreases |lines|
  {
    if lines != [] {
      var line := lines[0];
      var next := NextCheck(check, line);
      var tail := Expand(Pieces(next, lines[1..], vr), section);
      RerunAddsNoSection(next, lines[1..], vr, section);
      ExpandStep(check, lines, vr, section);
      if Inserts(check, line, vr) {
        LineClasses(line, vr);
        assert !next && NextCheck(false, line) == next;
        assert Expand(Pieces(check, lines, vr), section) == section + ([line] + tail);
        PiecesConcat(check, section, [line] + tail, vr);
        SectionIsQuiet(check, section, vr);
        CopiedFirst(false, line, tail, vr);
        InsertedCountConcat(Pieces(check, section, vr), Pieces(false, [line] + tail, vr));
      } else {
        assert Expand(Pieces(check, lines, vr), section) == [line] + tail;
        CopiedFirst(check, line, tail, vr);
      }
    }
  }

  // ----- The section of this release -----

  /** The lines the section's text reads as: its heading, the lines of the
      notes, and the blank line. */
  function SectionLines(vr: string, notes: string): seq<string> {
    Split(VersionPrefix + " " + vr + notes, '\n') + [""]
  }

  lemma {:induction false} TerminateSplit(s: string)
    ensures Terminate(Split(s, '\n')) == s + "\n"
  {
    if s != [] {
      TerminateSplit(s[1..]);
      if s[0] != '\n' {
        var rest := Split(s[1..], '\n');
        var pieces := [[s[0]] + rest[0]] + rest[1..];
        assert Split(s, '\n') == pieces;
        assert pieces[1..] == rest[1..];
        assert Terminate(pieces) == ([s[0]] + rest[0]) + "\n" + Terminate(rest[1..]);
        assert Terminate(rest) == rest[0] + "\n" + Terminate(rest[1..]);
        assert ([s[0]] + rest[0]) + "\n" + Terminate(rest[1..]) == [s[0]] + (rest[0] + "\n" + Terminate(rest[1..]));
        assert [s[0]] + (s[1..] + "\n") == s + "\n";
      } else {
        assert s == "\n" + s[1..];
      }
    }
  }

  /** The section's text is its lines, each ended by a newline. */
  lemma SectionTextIsItsLines(vr: string, notes: string)
    ensures Terminate(SectionLines(vr, notes)) == SectionText(vr, notes)
  {
    var s := VersionPrefix + " " + vr + notes;
    TerminateSplit(s);
    TerminateConcat(Split(s, '\n'), [""]);
  }

  lemma {:induction false} SplitFreePrefix(a: string, b: string, sep: char)
    requires Free(a, sep)
    ensures Split(a + b, sep)[0] == a + Split(b, sep)[0]
    ensures Split(a + b, sep)[1..] == Split(b, sep)[1..]
  {
    if a != [] {
      SplitFreePrefix(a[1..], b, sep);
      assert (a + b)[0] == a[0] && (a + b)[1..] == a[1..] + b;
    } else {
      assert a + b == b;
    }
  }

  /** Under a bullet-shaped note text every line after the first starts with
      '*'. */
  lemma {:induction false} BulletPieces(s: string)
    requires Notes.NewlinesOpenBullets(s)
    ensures forall k :: 1 <= k < |Split(s, '\n')| ==> 1 <= |Split(s, '\n')[k]| && Split(s, '\n')[k][0] == '*'
  {
    if s != [] {
      BulletPieces(s[1..]);
      var rest := Split(s[1..], '\n');
      if s[0] == '\n' {
        assert s[1..] != [] && s[1..][0] == '*';
        var tail := Split(s[1..][1..], '\n');
        assert rest == [[s[1..][0]] + tail[0]] + tail[1..];
        assert Split(s, '\n') == [""] + rest;
      }
    }
  }

  /** For a version name without line breaks and notes in the shape
      `changes` produces, the section opens with vr's heading and holds no
      title line. */
  lemma SectionLinesShape(vr: string, notes: string)
    requires Free(vr, '\n')
    requires Notes.NewlinesOpenBullets(notes)
    ensures IsCurrent(SectionLines(vr, notes)[0], vr)
    ensures forall k :: 0 <= k < |SectionLines(vr, notes)| ==> !IsTitle(SectionLines(vr, notes)[k])
  {
    var head := VersionPrefix + " " + vr;
    assert Free(head, '\n') by {
      assert Free(VersionPrefix + " ", '\n');
    }
    SplitFreePrefix(head, notes, '\n');
    BulletPieces(notes);
    var lines := SectionLines(vr, notes);
    var parts := Split(head + notes, '\n');
    assert lines[0] == parts[0] == head + Split(notes, '\n')[0];
    assert lines[0][..|head|] == head;
    forall k | 0 <= k < |lines|
      ensures !IsTitle(lines[k])
    {
      if k == 0 {
        LineClasses(lines[0], vr);
      } else if k < |parts| {
        assert lines[k] == Split(notes, '\n')[k];
        assert LogTitle[0] == '#';
      }
    }
  }

  /** So rerunning the pass with this release's notes adds no second
      section. */
  lemma RerunWithReleaseNotes(lines: seq<string>, vr: string)
    requires Free(vr, '\n')
    ensures var section := SectionLines(vr, Notes.Changes());
      InsertedCount(Pieces(false, Expand(Pieces(false, lines, vr), section), vr)) == 0
  {
    Notes.ChangesShape();
    SectionLinesShape(vr, Notes.Changes());
    RerunAddsNoSection(false, lines, vr, SectionLines(vr, Notes.Changes()));
  }
}

=== FILE: cleaning.dfy ===
/** `cleanList` of auto_editor/usefulFunctions.py: delete a set of characters
    from every string of a list (`str.translate` with a deletion table), then
    drop the strings that became empty. */
module Cleaning {
  import opened Text

  /** `s.translate(str.maketrans('', '', rm))`: s with every character of rm
      deleted and every other character kept, in order. */
  function DeleteChars(s: string, rm: string): (r: string)
    ensures |r| <= |s|
    ensures forall c :: Count(r, c) == if c in rm then 0 else Count(s, c)
  {
    if s == [] then []
    else
      var rest := DeleteChars(s[1..], rm);
      var r := if s[0] in rm then rest else [s[0]] + rest;
      assert forall c :: Count(r, c) == if c in rm then 0 else Count(s, c) by {
        if s[0] !in rm {
          assert r[1..] == rest;
        }
      }
      r
  }

  lemma CountZeroIsAbsent(s: string, c: char)
    requires Count(s, c) == 0
    ensures c !in s
  {
    if s != [] {
      CountZeroIsAbsent(s[1..], c);
    }
  }

  /** No character of rm is left. */
  lemma DeleteCharsRemovesAll(s: string, rm: string)
    ensures forall i :: 0 <= i < |DeleteChars(s, rm)| ==> DeleteChars(s, rm)[i] !in rm
  {
    var r := DeleteChars(s, rm);
    forall i | 0 <= i < |r|
      ensures r[i] !in rm
    {
      if r[i] in rm {
        CountZeroIsAbsent(r, r[i]);
      }
    }
  }

  /** Deletion works character by character, so it keeps the order of what
      remains. */
  lemma {:induction false} DeleteCharsConcat(a: string, b: string, rm: string)
    ensures DeleteChars(a + b, rm) == DeleteChars(a, rm) + DeleteChars(b, rm)
  {
    if a == [] {
      assert a + b == b;
    } else {
      assert (a + b)[1..] == a[1..] + b;
      DeleteCharsConcat(a[1..], b, rm);
    }
  }

  /** A string without characters of rm is left as it is. */
  lemma {:induction false} DeleteCharsOfClean(s: string, rm: string)
    requires forall i :: 0 <= i < |s| ==> s[i] !in rm
    ensures DeleteChars(s, rm) == s
  {
    if s != [] {
      DeleteCharsOfClean(s[1..], rm);
      assert [s[0]] + s[1..] == s;
    }
  }

  predicate NoneOf(s: string, rm: string) {
    forall i :: 0 <= i < |s| ==> s[i] !in rm
  }

  /** `cleanList(x, rm_chars)`: every string with the characters of rm_chars
      deleted, the empty results dropped. */
  function CleanList(xs: seq<string>, rm: string): (r: seq<string>)
    ensures |r| <= |xs|
    ensures forall k :: 0 <= k < |r| ==> r[k] != "" && NoneOf(r[k], rm)
  {
    if xs == [] then []
    else
      var t := DeleteChars(xs[0], rm);
      DeleteCharsRemovesAll(xs[0], rm);
      (if t == "" then [] else [t]) + CleanList(xs[1..], rm)
  }

  /** Every string of the result is the cleaned form of some input string. */
  lemma {:induction false} CleanListFromInput(xs: seq<string>, rm: string, k: int)
    requires 0 <= k < |CleanList(xs, rm)|
    ensures exists j :: 0 <= j < |xs| && CleanList(xs, rm)[k] == DeleteChars(xs[j], rm)
  {
    var t := DeleteChars(xs[0], rm);
    var rest := CleanList(xs[1..], rm);
    if t != "" && k == 0 {
      assert CleanList(xs, rm)[k] == DeleteChars(xs[0], rm);
    } else {
      var k' := if t == "" then k else k - 1;
      assert CleanList(xs, rm)[k] == rest[k'];
      CleanListFromInput(xs[1..], rm, k');
      var j :| 0 <= j < |xs[1..]| && rest[k'] == DeleteChars(xs[1..][j], rm);
      assert CleanList(xs, rm)[k] == DeleteChars(xs[j + 1], rm);
    }
  }

  /** Cleaning a joined list is joining the cleaned lists: the strings that
      survive stay in their original order. */
  lemma {:induction false} CleanListConcat(a: seq<string>, b: seq<string>, rm: string)
    ensures CleanList(a + b, rm) == CleanList(a, rm) + CleanList(b, rm)
  {
    if a == [] {
      assert a + b == b;
    } else {
      assert (a + b)[1..] == a[1..] + b;
      CleanListConcat(a[1..], b, rm);
    }
  }

  /** Every string whose cleaned form is not empty survives, cleaned. */
  lemma {:induction false} CleanListKeepsNonEmpty(xs: seq<string>, rm: string, j: int)
    requires 0 <= j < |xs| && DeleteChars(xs[j], rm) != ""
    ensures DeleteChars(xs[j], rm) in CleanList(xs, rm)
  {
    if j > 0 {
      CleanListKeepsNonEmpty(xs[1..], rm, j - 1);
    }
  }

  /** Cleaning twice is cleaning once. */
  lemma {:induction false} CleanListIdempotent(xs: seq<string>, rm: string)
    ensures CleanList(CleanList(xs, rm), rm) == CleanList(xs, rm)
  {
    if xs != [] {
      var t := DeleteChars(xs[0], rm);
      CleanListIdempotent(xs[1..], rm);
      var rest := CleanList(xs[1..], rm);
      if t != "" {
        DeleteCharsRemovesAll(xs[0], rm);
        DeleteCharsOfClean(t, rm);
        var once := [t] + rest;
        assert CleanList(xs, rm) == once;
        assert once[0] == t && once[1..] == rest;
        assert CleanList(once, rm) == [DeleteChars(t, rm)] + CleanList(rest, rm);
      } else {
        assert CleanList(xs, rm) == [] + rest == rest;
      }
    }
  }
}

=== FILE: clock.dfy ===
/** The wall-clock formatting of auto_editor/usefulFunctions.py (`prettyTime`),
    applied to an hour and minute already converted to local time.
    `ParseClock` reads the two formats back, and the round-trip lemmas show
    that the formatting loses nothing. */
module Clock {
  import opened Results
  import opened Text

  /** A local time of day, 24-hour hour and minute, as `time.localtime`
      reports them. */
  datatype WallClock = WallClock(hour: int, minute: int) {
    predicate Valid() {
      0 <= hour < 24 && 0 <= minute < 60
    }
  }

  type ValidClock = c: WallClock | c.Valid() witness WallClock(0, 0)

  /** `f'{n:02}'` for 0 <= n < 100. */
  function Pad2(n: int): (r: string)
    requires 0 <= n < 100
    ensures |r| == 2 && AllDigits(r) && TwoDigitValue(r) == n
  {
    [DigitChar(n / 10), DigitChar(n % 10)]
  }

  function TwoDigitValue(s: string): int
    requires |s| == 2 && AllDigits(s)
  {
    DigitValue(s[0]) * 10 + DigitValue(s[1])
  }

  /** The hour a 12-hour clock shows: the one hour in 1..12 that agrees
      with the 24-hour value modulo 12. */
  function DisplayHour(hour: int): (h: int)
    requires 0 <= hour < 24
    ensures 1 <= h <= 12
    ensures h % 12 == hour % 12
  {
    if hour == 0 then 12 else if hour > 12 then hour - 12 else hour
  }

  function Meridiem(hour: int): string {
    if hour >= 12 then "PM" else "AM"
  }

  /** `prettyTime`: "HH:MM" in 24-hour mode, "hh:MM AM" or "hh:MM PM" in
      12-hour mode. */
  function PrettyTime(c: WallClock, ampm: bool): (r: string)
    requires c.Valid()
    ensures |r| == (if ampm then 8 else 5)
    ensures r[2] == ':' && AllDigits(r[..2]) && AllDigits(r[3..5])
    ensures TwoDigitValue(r[3..5]) == c.minute
    ensures !ampm ==> TwoDigitValue(r[..2]) == c.hour
    ensures ampm ==> 1 <= TwoDigitValue(r[..2]) <= 12
    ensures ampm ==> TwoDigitValue(r[..2]) % 12 == c.hour % 12
    ensures ampm ==> r[5] == ' ' && (r[6..] == "PM" <==> c.hour >= 12) && (r[6..] == "AM" <==> c.hour < 12)
  {
    var hh := if ampm then DisplayHour(c.hour) else c.hour;
    var text := Pad2(hh) + ":" + Pad2(c.minute);
    assert text[..2] == Pad2(hh) && text[3..5] == Pad2(c.minute);
    if ampm then text + " " + Meridiem(c.hour) else text
  }

  /** Reads a string in the format `PrettyTime` writes back into a 24-hour
      clock; `None` for anything that is not such a string. */
  function ParseClock(s: string, ampm: bool): Option<WallClock> {
    if |s| != (if ampm then 8 else 5) || s[2] != ':' || !AllDigits(s[..2]) || !AllDigits(s[3..5]) then None
    else
      var h := TwoDigitValue(s[..2]);
      var m := TwoDigitValue(s[3..5]);
      if 60 <= m then None
      else if !ampm then (if h < 24 then Some(WallClock(h, m)) else None)
      else if s[5] != ' ' || !(1 <= h <= 12) then None
      else if s[6..] == "AM" then Some(WallClock(h % 12, m))
      else if s[6..] == "PM" then Some(WallClock(h % 12 + 12, m))
      else None
  }

  /** Every formatted time reads back as the clock it came from. */
  lemma ParsePrettyTime(c: WallClock, ampm: bool)
    requires c.Valid()
    ensures ParseClock(PrettyTime(c, ampm), ampm) == Some(c)
  {
  }

  /** Two-digit strings with the same value are the same string. */
  lemma SameTwoDigits(r: string, s: string)
    requires |r| == 2 && AllDigits(r) && |s| == 2 && AllDigits(s)
    requires TwoDigitValue(r) == TwoDigitValue(s)
    ensures r == s
  {
    assert DigitValue(r[0]) == DigitValue(s[0]) && DigitValue(r[1]) == DigitValue(s[1]);
    assert r[0] == DigitChar(DigitValue(r[0])) == s[0];
    assert r[1] == DigitChar(DigitValue(r[1])) == s[1];
  }

  /** A string of the shape "hh:mm" is fixed by its two numbers. */
  lemma SameClockShape(r: string, s: string)
    requires 5 <= |r| && 5 <= |s| && r[2] == ':' && s[2] == ':'
    requires r[..2] == s[..2] && r[3..5] == s[3..5]
    ensures r[..5] == s[..5]
  {
    assert r[..5] == r[..2] + [':'] + r[3..5];
    assert s[..5] == s[..2] + [':'] + s[3..5];
  }

  /** Every string that reads as a clock is exactly what `PrettyTime` writes
      for that clock, so the format is a one-to-one encoding. */
  lemma PrettyTimeOfParse(s: string, ampm: bool)
    requires ParseClock(s, ampm).Some?
    ensures ParseClock(s, ampm).value.Valid()
    ensures PrettyTime(ParseClock(s, ampm).value, ampm) == s
  {
    if ampm {
      TwelveHourOfParse(s);
    } else {
      DayHourOfParse(s);
    }
  }

  lemma DayHourOfParse(s: string)
    requires ParseClock(s, false).Some?
    ensures ParseClock(s, false).value.Valid()
    ensures PrettyTime(ParseClock(s, false).value, false) == s
  {
    var r := PrettyTime(ParseClock(s, false).value, false);
    SameTwoDigits(r[..2], s[..2]);
    SameTwoDigits(r[3..5], s[3..5]);
    SameClockShape(r, s);
    assert r == r[..5] && s == s[..5];
  }

  lemma TwelveHourOfParse(s: string)
    requires ParseClock(s, true).Some?
    ensures ParseClock(s, true).value.Valid()
    ensures PrettyTime(ParseClock(s, true).value, true) == s
  {
    var c := ParseClock(s, true).value;
    var r := PrettyTime(c, true);
    TwelveHourDigits(s);
    SameTwoDigits(r[..2], s[..2]);
    SameTwoDigits(r[3..5], s[3..5]);
    SameClockShape(r, s);
    assert r == r[..5] + " " + r[6..];
    assert s == s[..5] + " " + s[6..];
  }

  /** In 12-hour mode the hour read back is shown as the same two digits. */
  lemma TwelveHourDigits(s: string)
    requires ParseClock(s, true).Some?
    ensures ParseClock(s, true).value.Valid()
    ensures TwoDigitValue(PrettyTime(ParseClock(s, true).value, true)[..2]) == TwoDigitValue(s[..2])
  {
    var c := ParseClock(s, true).value;
    var h := TwoDigitValue(s[..2]);
    assert 1 <= h <= 12;
    if s[6..] == "AM" {
      assert c.hour == h % 12;
    } else {
      assert c.hour == h % 12 + 12;
    }
    assert c.hour % 12 == h % 12;
    SameModTwelve(TwoDigitValue(PrettyTime(c, true)[..2]), h);
  }

  lemma SameModTwelve(a: int, b: int)
    requires 1 <= a <= 12 && 1 <= b <= 12 && a % 12 == b % 12
    ensures a == b
  {
  }

  /** Midnight and one in the afternoon on the 12-hour clock. */
  lemma TwelveHourExamples()
    ensures PrettyTime(WallClock(0, 0), true) == "12:00 AM"
    ensures PrettyTime(WallClock(13, 0), true) == "01:00 PM"
    ensures PrettyTime(WallClock(12, 5), true) == "12:05 PM"
  {
  }

  /** One in the afternoon on the 24-hour clock. */
  lemma DayHourExample()
    ensures PrettyTime(WallClock(13, 0), false) == "13:00"
  {
  }
}

=== FILE: colour.dfy ===
/** `hex_to_bgr` of auto_editor/usefulFunctions.py: a "#RGB" or "#RRGGBB"
    colour code becomes the list [blue, green, red]. Anything else is
    reported through the logger's error path, which here is an `Err`.

    `HexToBgrAsWritten` models the guard exactly as written, whose `$` also
    accepts one trailing newline; `HexToBgr` is the intended parser that the
    rest of the model uses. */
module Colour {
  import opened Results

  datatype HexError =
    | InvalidHexCode(input: string)  // the `log.error('Invalid hex code: ...')` path
    | ValueError                     // `int(..., 16)` given something that is not a hex number

  predicate IsHexDigit(c: char) {
    '0' <= c <= '9' || 'a' <= c <= 'f' || 'A' <= c <= 'F'
  }

  function HexValue(c: char): (v: int)
    requires IsHexDigit(c)
    ensures 0 <= v < 16
  {
    if '0' <= c <= '9' then c as int - '0' as int
    else if 'a' <= c <= 'f' then c as int - 'a' as int + 10
    else c as int - 'A' as int + 10
  }

  /** The lower-case digit for a value below 16. */
  function HexDigit(v: int): (c: char)
    requires 0 <= v < 16
    ensures IsHexDigit(c) && HexValue(c) == v
    ensures !('A' <= c <= 'F')
  {
    if v < 10 then ('0' as int + v) as char else ('a' as int + v - 10) as char
  }

  function Lower(c: char): char {
    if 'A' <= c <= 'F' then (c as int - 'A' as int + 'a' as int) as char else c
  }

  /** The value of a two-digit hex number. */
  function ByteValue(hi: char, lo: char): (v: int)
    requires IsHexDigit(hi) && IsHexDigit(lo)
    ensures 0 <= v <= 255
  {
    16 * HexValue(hi) + HexValue(lo)
  }

  /** The language the pattern `#[a-fA-F0-9]{3}(?:[a-fA-F0-9]{3})?$` is meant
      to accept: '#' and then exactly three or six hex digits. */
  predicate IsHexCode(s: string) {
    (|s| == 4 || |s| == 7) && s[0] == '#' && forall i :: 1 <= i < |s| ==> IsHexDigit(s[i])
  }

  predicate IsColour(bgr: seq<int>) {
    |bgr| == 3 && forall k :: 0 <= k < 3 ==> 0 <= bgr[k] <= 255
  }

  /** `hex_to_bgr`: the pairs of a six-digit code in the order blue, green,
      red; a three-digit code reads each digit twice. */
  function HexToBgr(s: string): (r: Result<seq<int>, HexError>)
    ensures r.Ok? <==> IsHexCode(s)
    ensures r.Err? ==> r.error == InvalidHexCode(s)
    ensures r.Ok? ==> IsColour(r.value)
    ensures r.Ok? && |s| == 7 ==>
      r.value[0] == ByteValue(s[5], s[6]) && r.value[1] == ByteValue(s[3], s[4]) && r.value[2] == ByteValue(s[1], s[2])
  {
    if !IsHexCode(s) then Err(InvalidHexCode(s))
    else if |s| < 5 then Ok([ByteValue(s[3], s[3]), ByteValue(s[2], s[2]), ByteValue(s[1], s[1])])
    else Ok([ByteValue(s[5], s[6]), ByteValue(s[3], s[4]), ByteValue(s[1], s[2])])
  }

  /** A short code means the long code with every digit doubled: "#abc" and
      "#aabbcc" are accepted together and give the same colour. */
  lemma ShortCodeDoublesDigits(x: char, y: char, z: char)
    ensures HexToBgr(['#', x, y, z]).Ok? <==> HexToBgr(['#', x, x, y, y, z, z]).Ok?
    ensures HexToBgr(['#', x, y, z]).Ok? ==> HexToBgr(['#', x, y, z]) == HexToBgr(['#', x, x, y, y, z, z])
  {
    var short := ['#', x, y, z];
    var long := ['#', x, x, y, y, z, z];
    if !(IsHexDigit(x) && IsHexDigit(y) && IsHexDigit(z)) {
      assert !IsHexCode(short) by {
        if !IsHexDigit(x) { assert !IsHexDigit(short[1]); }
        else if !IsHexDigit(y) { assert !IsHexDigit(short[2]); }
        else { assert !IsHexDigit(short[3]); }
      }
      assert !IsHexCode(long) by {
        if !IsHexDigit(x) { assert !IsHexDigit(long[1]); }
        else if !IsHexDigit(y) { assert !IsHexDigit(long[3]); }
        else { assert !IsHexDigit(long[5]); }
      }
    }
  }

  lemma ByteOfDigits(v: int)
    requires 0 <= v <= 255
    ensures ByteValue(HexDigit(v / 16), HexDigit(v % 16)) == v
  {
  }

  lemma DigitOfValue(c: char)
    requires IsHexDigit(c)
    ensures HexDigit(HexValue(c)) == Lower(c)
  {
  }

  lemma DigitsOfByte(hi: char, lo: char)
    requires IsHexDigit(hi) && IsHexDigit(lo)
    ensures HexDigit(ByteValue(hi, lo) / 16) == Lower(hi)
    ensures HexDigit(ByteValue(hi, lo) % 16) == Lower(lo)
  {
    DigitOfValue(hi);
    DigitOfValue(lo);
  }

  /** The six-digit lower-case code of a colour, "#RRGGBB". */
  function BgrToHex(bgr: seq<int>): (s: string)
    requires IsColour(bgr)
    ensures IsHexCode(s) && |s| == 7
  {
    ['#', HexDigit(bgr[2] / 16), HexDigit(bgr[2] % 16),
          HexDigit(bgr[1] / 16), HexDigit(bgr[1] % 16),
          HexDigit(bgr[0] / 16), HexDigit(bgr[0] % 16)]
  }

  /** Parsing the code of a colour gives the colour back. */
  lemma HexToBgrOfBgrToHex(bgr: seq<int>)
    requires IsColour(bgr)
    ensures HexToBgr(BgrToHex(bgr)) == Ok(bgr)
  {
    ByteOfDigits(bgr[0]);
    ByteOfDigits(bgr[1]);
    ByteOfDigits(bgr[2]);
    var s := BgrToHex(bgr);
    assert ByteValue(s[5], s[6]) == bgr[0];
    assert ByteValue(s[3], s[4]) == bgr[1];
    assert ByteValue(s[1], s[2]) == bgr[2];
    assert HexToBgr(s).value == [bgr[0], bgr[1], bgr[2]] == bgr;
  }

  /** Writing out a parsed six-digit code gives the code back, in lower case. */
  lemma BgrToHexOfHexToBgr(s: string)
    requires IsHexCode(s) && |s| == 7
    ensures BgrToHex(HexToBgr(s).value) == [s[0]] + seq(6, i requires 0 <= i < 6 => Lower(s[i + 1]))
  {
    DigitsOfByte(s[1], s[2]);
    DigitsOfByte(s[3], s[4]);
    DigitsOfByte(s[5], s[6]);
  }

  // ----- The guard as written -----

  /** What `re.match` with the pattern above accepts: `$` also matches just
      before a newline that ends the string. */
  predicate MatchesAsWritten(s: string) {
    IsHexCode(s) || (1 <= |s| && s[|s| - 1] == '\n' && IsHexCode(s[..|s| - 1]))
  }

  /** Python's `s[i:j]` for 0 <= i <= j. */
  function Slice(s: string, i: nat, j: nat): string
    requires i <= j
  {
    if |s| <= i then "" else if |s| <= j then s[i..] else s[i..j]
  }

  /** `int(t, 16)` for the slices it is given here: a non-empty string of hex
      digits, otherwise ValueError. */
  function HexInt(t: string): Result<int, HexError> {
    if t != [] && forall i :: 0 <= i < |t| ==> IsHexDigit(t[i]) then
      Ok(if |t| == 1 then HexValue(t[0]) else if |t| == 2 then ByteValue(t[0], t[1]) else 0)
    else Err(ValueError)
  }

  /** `hex_to_bgr` as written: the guard, then the length test `len(inp) < 5`,
      then `int` on the slices at 5, 3 and 1, in that order. */
  function HexToBgrAsWritten(s: string): (r: Result<seq<int>, HexError>)
    ensures r.Ok? ==> MatchesAsWritten(s)
    ensures !MatchesAsWritten(s) ==> r == Err(InvalidHexCode(s))
    ensures IsHexCode(s) ==> r == HexToBgr(s)
    ensures MatchesAsWritten(s) && !IsHexCode(s) ==>
      r == if |s| == 8 then HexToBgr(s[..7]) else Err(ValueError)
  {
    if !MatchesAsWritten(s) then Err(InvalidHexCode(s))
    else if |s| < 5 then Ok([ByteValue(s[3], s[3]), ByteValue(s[2], s[2]), ByteValue(s[1], s[1])])
    else
      assert 7 <= |s| ==> Slice(s, 5, 7) == s[5..7] && Slice(s, 3, 5) == s[3..5] && Slice(s, 1, 3) == s[1..3];
      assert |s| == 8 ==> s[..7][5..7] == s[5..7] && s[..7][3..5] == s[3..5] && s[..7][1..3] == s[1..3];
      match HexInt(Slice(s, 5, 7))
      case Err(e) => Err(e)
      case Ok(b) =>
        match HexInt(Slice(s, 3, 5))
        case Err(e) => Err(e)
        case Ok(g) =>
          match HexInt(Slice(s, 1, 3))
          case Err(e) => Err(e)
          case Ok(red) => Ok([b, g, red])
  }

  /** On every input that does not end in a newline the written guard and the
      intended parser agree. */
  lemma AsWrittenAgreesWithoutNewline(s: string)
    requires s == [] || s[|s| - 1] != '\n'
    ensures HexToBgrAsWritten(s) == HexToBgr(s)
  {
  }

  /** "#fff" followed by a newline passes the guard and then fails inside
      `int` with a ValueError, instead of the "Invalid hex code" error that the
      intended parser reports. */
  lemma AsWrittenCrashesOnTrailingNewline()
    ensures HexToBgrAsWritten("#fff\n") == Err(ValueError)
    ensures HexToBgr("#fff\n") == Err(InvalidHexCode("#fff\n"))
  {
  }

  /** A newline after a valid code is where the written guard and the
      intended parser part: a six-digit code followed by a newline is
      accepted and gives the colour of the code, because the slices never
      reach the newline; a three-digit code followed by a newline fails
      inside `int` with a ValueError. */
  lemma AsWrittenOnTrailingNewline(s: string)
    requires IsHexCode(s)
    ensures |s| == 7 ==> HexToBgrAsWritten(s + "\n") == HexToBgr(s)
    ensures |s| == 4 ==> HexToBgrAsWritten(s + "\n") == Err(ValueError)
    ensures HexToBgr(s + "\n") == Err(InvalidHexCode(s + "\n"))
  {
  }
}

=== FILE: notes.dfy ===
/** `changes` of setup.py: the release notes, written as an indented
    triple-quoted block, are flattened into one bulleted paragraph. Newlines
    are removed, then every run of four spaces, and then each '*' starts a
    new line. The properties hold for any note text, so they hold for the
    notes of this release in particular. */
module Notes {
  import opened Text

  /** The triple-quoted block of `changes`, character for character. */
  const ReleaseNotes: string :=
    "\n    * the default for `--sample_rate` is now the same as the input." +
    "\n    * the default `--video_codec` is now the same as the video." +
    "\n    * the `--hardware_accel` option has been removed because it is not used anywhere in the program." +
    "\n    "

  const Indent: string := "    "

  /** The three replacements of `changes`, in their order. */
  function Normalize(text: string): string {
    ReplaceAll(ReplaceAll(ReplaceAll(text, "\n", ""), Indent, ""), "*", "\n*")
  }

  /** `changes()`. */
  function Changes(): string {
    Normalize(ReleaseNotes)
  }

  // ----- Shape predicates -----

  /** Every newline is immediately followed by a '*'. */
  predicate NewlinesOpenBullets(s: string) {
    s == [] || ((s[0] == '\n' ==> 2 <= |s| && s[1] == '*') && NewlinesOpenBullets(s[1..]))
  }

  /** The number of spaces s starts with. */
  function LeadingSpaces(s: string): (n: nat)
    ensures n <= |s|
    ensures n < |s| ==> s[n] != ' '
  {
    if s != [] && s[0] == ' ' then 1 + LeadingSpaces(s[1..]) else 0
  }

  /** No four consecutive spaces anywhere in s. */
  predicate NoFourSpaces(s: string) {
    s == [] || (LeadingSpaces(s) < 4 && NoFourSpaces(s[1..]))
  }

  lemma {:induction false} SpacesAhead(s: string, i: nat)
    requires i < LeadingSpaces(s)
    ensures s[i] == ' '
  {
    if i > 0 {
      SpacesAhead(s[1..], i - 1);
    }
  }

  lemma FourSpacesAhead(s: string)
    ensures StartsWith(s, Indent) <==> 4 <= LeadingSpaces(s)
  {
    if 4 <= LeadingSpaces(s) {
      SpacesAhead(s, 0);
      SpacesAhead(s, 1);
      SpacesAhead(s, 2);
      SpacesAhead(s, 3);
      assert s[..4] == Indent;
    }
  }

  // ----- Step 1: newlines removed -----

  lemma {:induction false} RemoveNewlines(s: string)
    ensures Free(ReplaceAll(s, "\n", ""), '\n')
    ensures Count(ReplaceAll(s, "\n", ""), '*') == Count(s, '*')
    decreases |s|
  {
    if s != [] {
      RemoveNewlines(s[1..]);
      var rest := ReplaceAll(s[1..], "\n", "");
      if StartsWith(s, "\n") {
        assert s[0] == '\n';
        assert ReplaceAll(s, "\n", "") == rest;
      } else {
        assert ([s[0]] + rest)[0] == s[0];
        assert ([s[0]] + rest)[1..] == rest;
      }
    }
  }

  // ----- Step 2: runs of four spaces removed -----

  /** Removing runs of four spaces left to right shortens the leading run
      of k spaces to k % 4. */
  lemma {:induction false} RemoveIndentsLead(s: string)
    ensures LeadingSpaces(ReplaceAll(s, Indent, "")) == LeadingSpaces(s) % 4
    decreases |s|
  {
    if s != [] {
      FourSpacesAhead(s);
      if StartsWith(s, Indent) {
        RemoveIndentsLead(s[4..]);
        LeadingSpacesDrop(s, 4);
        assert ReplaceAll(s, Indent, "") == ReplaceAll(s[4..], Indent, "");
        ModFour(LeadingSpaces(s[4..]));
      } else {
        RemoveIndentsLead(s[1..]);
        KeptFirst(s);
      }
    }
  }

  lemma ModFour(k: int)
    ensures (k + 4) % 4 == k % 4
  {
  }

  /** When s does not start with a run of four spaces, its first character
      is kept, and the leading run, shorter than four, survives whole. */
  lemma KeptFirst(s: string)
    requires s != [] && LeadingSpaces(s) < 4
    requires LeadingSpaces(ReplaceAll(s[1..], Indent, "")) == LeadingSpaces(s[1..]) % 4
    ensures LeadingSpaces(ReplaceAll(s, Indent, "")) == LeadingSpaces(s) % 4
  {
    FourSpacesAhead(s);
    var rest := ReplaceAll(s[1..], Indent, "");
    var r := [s[0]] + rest;
    assert ReplaceAll(s, Indent, "") == r;
    assert r[0] == s[0] && r[1..] == rest;
    SmallMod(LeadingSpaces(s));
    if s[0] == ' ' {
      assert LeadingSpaces(s) == 1 + LeadingSpaces(s[1..]);
      SmallMod(LeadingSpaces(s[1..]));
      assert LeadingSpaces(r) == 1 + LeadingSpaces(rest);
    } else {
      assert LeadingSpaces(r) == 0;
    }
  }

  lemma SmallMod(k: int)
    requires 0 <= k < 4
    ensures k % 4 == k
  {
  }

  /** So no run of four spaces is left anywhere: a run of k spaces keeps
      k % 4 of them. */
  lemma {:induction false} RemoveIndents(s: string)
    ensures NoFourSpaces(ReplaceAll(s, Indent, ""))
    decreases |s|
  {
    if s != [] {
      if StartsWith(s, Indent) {
        RemoveIndents(s[4..]);
        assert ReplaceAll(s, Indent, "") == ReplaceAll(s[4..], Indent, "");
      } else {
        var rest := ReplaceAll(s[1..], Indent, "");
        RemoveIndents(s[1..]);
        RemoveIndentsLead(s);
        var r := [s[0]] + rest;
        assert ReplaceAll(s, Indent, "") == r;
        assert r[1..] == rest;
      }
    }
  }

  lemma {:induction false} LeadingSpacesDrop(s: string, k: nat)
    requires k <= LeadingSpaces(s)
    ensures LeadingSpaces(s[k..]) == LeadingSpaces(s) - k
    decreases k
  {
    if k > 0 {
      LeadingSpacesDrop(s[1..], k - 1);
      assert s[1..][k - 1..] == s[k..];
    }
  }

  /** Only spaces are removed: every other character keeps its count. */
  lemma {:induction false} RemoveIndentsKeeps(s: string, c: char)
    requires c != ' '
    ensures Count(ReplaceAll(s, Indent, ""), c) == Count(s, c)
    decreases |s|
  {
    if s != [] {
      if StartsWith(s, Indent) {
        RemoveIndentsKeeps(s[4..], c);
        assert ReplaceAll(s, Indent, "") == ReplaceAll(s[4..], Indent, "");
        assert Free(Indent, c);
        CountZeroFree(Indent, c);
        assert s == Indent + s[4..];
        CountConcat(Indent, s[4..], c);
      } else {
        var rest := ReplaceAll(s[1..], Indent, "");
        RemoveIndentsKeeps(s[1..], c);
        assert ([s[0]] + rest)[0] == s[0];
        assert ([s[0]] + rest)[1..] == rest;
      }
    }
  }

  lemma {:induction false} CountZeroFree(s: string, c: char)
    ensures Count(s, c) == 0 <==> Free(s, c)
  {
    if s != [] {
      CountZeroFree(s[1..], c);
      if Free(s[1..], c) && s[0] != c {
        assert forall j :: 1 <= j < |s| ==> s[j] == s[1..][j - 1];
      }
    }
  }

  // ----- Step 3: each '*' starts a line -----

  /** Putting a newline before every '*' of a newline-free text makes every
      newline open a bullet, one newline per '*', and splits runs of spaces
      without lengthening any. */
  lemma {:induction false} OpenBullets(s: string)
    requires Free(s, '\n')
    ensures var r := ReplaceAll(s, "*", "\n*");
      && NewlinesOpenBullets(r)
      && Count(r, '\n') == Count(s, '*')
      && Count(r, '*') == Count(s, '*')
      && LeadingSpaces(r) <= LeadingSpaces(s)
      && (NoFourSpaces(s) ==> NoFourSpaces(r))
    decreases |s|
  {
    var r := ReplaceAll(s, "*", "\n*");
    if s != [] {
      var rest := ReplaceAll(s[1..], "*", "\n*");
      OpenBullets(s[1..]);
      if StartsWith(s, "*") {
        assert s[0] == '*';
        assert r == "\n*" + rest;
        assert r[1..] == "*" + rest;
        assert r[1..][1..] == rest;
      } else {
        assert r == [s[0]] + rest;
        assert r[1..] == rest;
      }
    }
  }

  /** Every newline of the normalized notes opens a bullet, and there is one
      newline per bullet. */
  lemma NormalizeOpensBullets(text: string)
    ensures NewlinesOpenBullets(Normalize(text))
    ensures Count(Normalize(text), '\n') == Count(Normalize(text), '*')
    ensures Count(Normalize(text), '*') == Count(text, '*')
  {
    var a := ReplaceAll(text, "\n", "");
    RemoveNewlines(text);
    RemoveIndentsKeeps(a, '\n');
    RemoveIndentsKeeps(a, '*');
    CountZeroFree(a, '\n');
    CountZeroFree(ReplaceAll(a, Indent, ""), '\n');
    OpenBullets(ReplaceAll(a, Indent, ""));
  }

  /** No run of four spaces survives normalization. */
  lemma NormalizeRemovesIndents(text: string)
    ensures NoFourSpaces(Normalize(text))
  {
    var a := ReplaceAll(text, "\n", "");
    RemoveNewlines(text);
    RemoveIndents(a);
    RemoveIndentsKeeps(a, '\n');
    CountZeroFree(a, '\n');
    CountZeroFree(ReplaceAll(a, Indent, ""), '\n');
    OpenBullets(ReplaceAll(a, Indent, ""));
  }

  /** The notes of this release: one line per bullet. */
  lemma ChangesShape()
    ensures NewlinesOpenBullets(Changes())
    ensures NoFourSpaces(Changes())
    ensures Count(Changes(), '\n') == Count(Changes(), '*') == Count(ReleaseNotes, '*')
  {
    NormalizeOpensBullets(ReleaseNotes);
    NormalizeRemovesIndents(ReleaseNotes);
  }
}

=== FILE: progress.dfy ===
/** The progress bar of auto_editor/usefulFunctions.py: `bar`, which fits a
    status line to the terminal, and `ProgressBar`, whose constructor renders
    index 0 once and whose `tick` renders one update.

    The clock, the terminal width, the local-time conversion and the output
    sink are parameters: `now` is the `time()` reading of the call,
    `termsize` the terminal width, `localTime` what `time.localtime` makes of
    a timestamp, and `encodable` says which characters the sink can encode.
    Each call returns what it prints, or the exception that escapes it. */
module Progress {
  import opened Results
  import opened Text
  import opened Clock

  /** A `time()` reading: its value in seconds, and the text Python's float
      repr writes for it. */
  datatype Instant = Instant(seconds: real, repr: string)

  /** What one call prints: nothing, a line ended by '\r' that the next line
      overwrites, or a line ended by '\n'. */
  datatype Output = Silent | Overwrite(line: string) | Commit(line: string)

  /** The exceptions that escape a call. */
  datatype Crash = ZeroDivision | UnicodeEncode

  /** The fields of a `ProgressBar` object; `len_title` is `|title|`. */
  datatype ProgressBar = ProgressBar(
    total: int,
    begin: Instant,
    title: string,
    machine: bool,
    hide: bool,
    ampm: bool,
    allowUnicode: bool)

  function Min(a: int, b: int): int {
    if a <= b then a else b
  }

  function Max(a: int, b: int): int {
    if a >= b then a else b
  }

  // ----- bar -----

  /** The status line `bar` composes before fitting it. */
  function Compose(title: string, doneStr: string, togoStr: string, percent: string, newTime: string): string {
    "  ⏳" + title + ": [" + doneStr + togoStr + "] " + percent + "% done ETA " + newTime
  }

  /** Python's `s[:k]`; a negative k counts from the end. */
  function PrefixTo(s: string, k: int): (r: string)
    ensures StartsWith(s, r)
    ensures 0 <= k ==> |r| == Min(k, |s|)
    ensures k < 0 ==> |r| == Max(0, |s| + k)
  {
    if 0 <= k then (if k <= |s| then s[..k] else s)
    else if 0 <= |s| + k then s[..|s| + k]
    else ""
  }

  predicate AllSpaces(s: string) {
    forall i :: 0 <= i < |s| ==> s[i] == ' '
  }

  /** r is `line` cut to at most `termsize - 2` characters, or `line` padded
      with spaces up to `termsize - 4` characters. */
  predicate FitsLine(line: string, r: string, termsize: int) {
    && (StartsWith(line, r) || (StartsWith(r, line) && AllSpaces(r[|line|..])))
    && (termsize - 2 < |line| && 2 <= termsize ==> |r| == termsize - 2)
    && (termsize < 2 ==> |r| == Max(0, |line| - (2 - termsize)))
    && (|line| <= termsize - 2 ==> |r| == Max(|line|, termsize - 4))
  }

  /** `bar`: a line longer than `termsize - 2` is cut to that length (Python's
      slice, so a negative bound cuts from the end); a shorter line is padded
      with spaces up to `termsize - 4` characters, so that it overwrites a
      longer previous line. */
  function Bar(termsize: int, title: string, doneStr: string, togoStr: string, percent: string, newTime: string): (r: string)
    ensures 2 <= termsize ==> |r| <= termsize - 2
    ensures FitsLine(Compose(title, doneStr, togoStr, percent, newTime), r, termsize)
  {
    var line := Compose(title, doneStr, togoStr, percent, newTime);
    if |line| > termsize - 2 then PrefixTo(line, termsize - 2)
    else
      var r := line + Repeat(' ', termsize - |line| - 4);
      assert r[..|line|] == line && r[|line|..] == Repeat(' ', termsize - |line| - 4);
      r
  }

  // ----- percentage, rate and ETA -----

  /** Python's `round` of the fraction num/den to an integer: the nearest
      integer, ties going to the even one. */
  function RoundHalfEven(num: int, den: int): (q: int)
    requires 0 < den
    ensures -den <= 2 * (num - q * den) <= den
    ensures 2 * (num - q * den) == den ==> q % 2 == 0
    ensures 2 * (num - q * den) == -den ==> q % 2 == 0
  {
    var f := num / den;
    var rem := num % den;
    Distribute(f + 1, f, den);
    if 2 * rem < den then f
    else if 2 * rem > den then f + 1
    else if f % 2 == 0 then f
    else f + 1
  }

  lemma MulMonotone(a: int, b: int, c: int)
    requires a <= b && 0 <= c
    ensures a * c <= b * c
  {
    assert b * c - a * c == (b - a) * c;
  }

  lemma Distribute(a: int, b: int, d: int)
    ensures a * d - b * d == (a - b) * d
  {
  }

  /** Rounding to the nearest integer never reverses the order of two
      fractions with the same denominator. */
  lemma RoundHalfEvenMonotone(a: int, b: int, den: int)
    requires 0 < den && a <= b
    ensures RoundHalfEven(a, den) <= RoundHalfEven(b, den)
  {
    var qa := RoundHalfEven(a, den);
    var qb := RoundHalfEven(b, den);
    if qa > qb {
      MulMonotone(1, qa - qb, den);
      Distribute(qa, qb, den);
    }
  }

  /** The integer nearest to num/den is the only one within half of den. */
  lemma RoundHalfEvenUnique(num: int, den: int, q: int)
    requires 0 < den && -den < 2 * (num - q * den) < den
    ensures RoundHalfEven(num, den) == q
  {
    var p := RoundHalfEven(num, den);
    if p < q {
      MulMonotone(1, q - p, den);
      Distribute(q, p, den);
    } else if p > q {
      MulMonotone(1, p - q, den);
      Distribute(p, q, den);
    }
  }

  /** A fraction at least lo (at most hi) rounds to at least lo (at most hi). */
  lemma RoundHalfEvenBetween(num: int, den: int, lo: int, hi: int)
    requires 0 < den && lo * den <= num <= hi * den
    ensures lo <= RoundHalfEven(num, den) <= hi
  {
    RoundHalfEvenUnique(lo * den, den, lo);
    RoundHalfEvenUnique(hi * den, den, hi);
    RoundHalfEvenMonotone(lo * den, num, den);
    RoundHalfEvenMonotone(num, hi * den, den);
  }

  lemma LowerBoundBelow(index: int, total: int)
    requires 0 <= index && 0 < total
    ensures (if total <= index + 1 then 1000 else 0) * total <= (index + 1) * 1000
  {
    if total <= index + 1 {
      MulMonotone(total, index + 1, 1000);
    }
  }

  /** `min(100, round((index+1) / total * 100, 1))` in tenths of a percent,
      computed on the exact fraction. */
  function PercentTenths(index: int, total: int): (t: int)
    requires 0 <= index && 0 < total
    ensures 0 <= t <= 1000
    ensures total <= index + 1 ==> t == 1000
  {
    var num := (index + 1) * 1000;
    var lo := if total <= index + 1 then 1000 else 0;
    LowerBoundBelow(index, total);
    MulMonotone(1, total, num);
    RoundHalfEvenBetween(num, total, lo, num);
    Min(1000, RoundHalfEven(num, total))
  }

  /** Progress never goes backwards as the index grows. */
  lemma PercentMonotone(i: int, j: int, total: int)
    requires 0 <= i <= j && 0 < total
    ensures PercentTenths(i, total) <= PercentTenths(j, total)
  {
    assert (i + 1) * 1000 <= (j + 1) * 1000;
    RoundHalfEvenMonotone((i + 1) * 1000, (j + 1) * 1000, total);
  }

  /** A one-unit task is complete after its first tick, and the first tick of
      two hundred is half a percent. */
  lemma PercentExamples()
    ensures PercentTenths(0, 1) == 1000
    ensures PercentTenths(0, 200) == 5
    ensures PercentTenths(99, 200) == 500
  {
    RoundHalfEvenUnique(1000, 200, 5);
    RoundHalfEvenUnique(100000, 200, 500);
  }

  /** The estimated end time `beginTime + percentPerSec * 100`, where
      `percentPerSec` is forced to 0 while nothing is done: otherwise it
      extrapolates the elapsed time linearly to 100 percent. */
  function Eta(begin: real, now: real, t: int): (eta: real)
    requires 0 <= t <= 1000
    ensures t == 0 ==> eta == begin
    ensures 0 < t ==> (eta - begin) * (t as real) == (now - begin) * 1000.0
    ensures t == 1000 ==> eta == now
  {
    if t == 0 then begin
    else
      var percentDone := t as real / 10.0;
      var percentPerSec := (now - begin) / percentDone;
      begin + percentPerSec * 100.0
  }

  /** Python's `int(x)` of a float: truncation toward zero. */
  function Trunc(x: real): (n: int)
    ensures 0.0 <= x ==> n as real <= x < n as real + 1.0
    ensures x < 0.0 ==> n as real - 1.0 < x <= n as real
  {
    if 0.0 <= x then x.Floor else -((-x).Floor)
  }

  /** `f'{percentDone}'`: "100" once `min` picks its int argument, otherwise
      the float with one decimal, such as "0.5" or "33.3". */
  function PercentText(t: int): (s: string)
    requires 0 <= t <= 1000
    ensures t == 1000 ==> s == "100"
    ensures t < 1000 ==> 3 <= |s| && s[|s| - 2] == '.' && AllDigits(s[..|s| - 2]) && IsDigit(s[|s| - 1])
    ensures t < 1000 ==> DigitsValue(s[..|s| - 2]) * 10 + DigitValue(s[|s| - 1]) == t
    ensures t < 1000 && 3 < |s| ==> s[0] != '0'
  {
    if t == 1000 then "100"
    else
      var whole := NatToString(t / 10);
      DigitsValueOfNatToString(t / 10);
      var s := whole + "." + [DigitChar(t % 10)];
      assert s[..|s| - 2] == whole;
      s
  }

  // ----- tick -----

  /** The record machine mode prints: `title~index~total~beginTime~raw`, with
      the index clamped to the total. */
  function MachineRecord(pb: ProgressBar, index: int, raw: int): string {
    Join([pb.title, IntToString(Min(index, pb.total)), IntToString(pb.total), pb.begin.repr, IntToString(raw)], '~')
  }

  /** The length of the bar in glyphs: `max(1, termsize - (len_title + 50))`. */
  function BarLength(termsize: int, title: string): (n: int)
    ensures 1 <= n
  {
    Max(1, termsize - (|title| + 50))
  }

  /** `round(percentDone / (100 / barLen))` on the exact fraction: the share of
      the bar that is done. */
  function DoneGlyphs(t: int, barLen: int): (d: int)
    requires 0 <= t <= 1000 && 1 <= barLen
    ensures 0 <= d <= barLen
    ensures t == 0 ==> d == 0
    ensures t == 1000 ==> d == barLen
  {
    MulMonotone(t, 1000, barLen);
    RoundHalfEvenBetween(t * barLen, 1000, 0, barLen);
    if t == 0 || t == 1000 then
      RoundHalfEvenUnique(t * barLen, 1000, t / 1000 * barLen);
      RoundHalfEven(t * barLen, 1000)
    else
      RoundHalfEven(t * barLen, 1000)
  }

  /** The line of the Unicode bar for t tenths of a percent. */
  function UnicodeLine(pb: ProgressBar, t: int, newTime: string, termsize: int): string
    requires 0 <= t <= 1000
  {
    var barLen := BarLength(termsize, pb.title);
    var done := DoneGlyphs(t, barLen);
    Bar(termsize, pb.title, Repeat('█', done), Repeat('░', barLen - done), PercentText(t), newTime)
  }

  /** The line printed when the sink cannot take the bar's glyphs. */
  function PlainLine(t: int, newTime: string): string
    requires 0 <= t <= 1000
  {
    "   " + PercentText(t) + "% done ETA " + newTime
  }

  predicate Encodable(line: string, encodable: char -> bool) {
    forall i :: 0 <= i < |line| ==> encodable(line[i])
  }

  /** `print(line, ...)`: the output, or UnicodeEncodeError when the sink
      cannot encode one of its characters. */
  function Write(line: string, commit: bool, encodable: char -> bool): (r: Result<Output, Crash>)
    ensures r.Ok? <==> Encodable(line, encodable)
    ensures r.Ok? ==> r.value == (if commit then Commit(line) else Overwrite(line))
    ensures r.Err? ==> r.error == UnicodeEncode
  {
    if Encodable(line, encodable) then Ok(if commit then Commit(line) else Overwrite(line)) else Err(UnicodeEncode)
  }

  /** `ProgressBar.tick(index)`. */
  function Tick(pb: ProgressBar, index: int, now: real, termsize: int,
                localTime: real -> ValidClock, encodable: char -> bool): (r: Result<Output, Crash>)
    requires 0 <= pb.total && 0 <= index
    ensures pb.hide ==> r == Ok(Silent)
    ensures !pb.hide && pb.total == 0 ==> r == Err(ZeroDivision)
    ensures !pb.hide && 0 < pb.total && r.Err? ==> r.error == UnicodeEncode
    ensures !pb.hide && r.Ok? ==> (r.value.Commit? <==> !pb.machine && !pb.allowUnicode)
    ensures !pb.hide && r.Ok? ==> (r.value.Overwrite? <==> pb.machine || pb.allowUnicode)
  {
    if pb.hide then Ok(Silent)
    else if pb.total == 0 then Err(ZeroDivision)
    else
      var t := PercentTenths(index, pb.total);
      var eta := Eta(pb.begin.seconds, now, t);
      var newTime := PrettyTime(localTime(eta), pb.ampm);
      if pb.machine then Write(MachineRecord(pb, index, Trunc(eta)), false, encodable)
      else if pb.allowUnicode then Write(UnicodeLine(pb, t, newTime, termsize), false, encodable)
      else Write(PlainLine(t, newTime), true, encodable)
  }

  // ----- construction -----

  /** `self.ampm`: 12-hour unless, in human mode, the clock-format lookup
      answered with a format that has no 'a'. `clockFormat` is None where the
      lookup does not run (off macOS) or fails. */
  function ClockPreference(machine: bool, clockFormat: Option<string>): (ampm: bool)
    ensures machine || clockFormat.None? ==> ampm
    ensures !machine && clockFormat.Some? ==> (ampm <==> 'a' in clockFormat.value)
  {
    if !machine && clockFormat.Some? then 'a' in clockFormat.value else true
  }

  /** `ProgressBar(total, title, machineReadable, hide)`: store the fields,
      then render index 0; if that print fails to encode, print a plain
      0% line instead and turn the Unicode bar off for good. */
  function Create(total: int, title: string, machine: bool, hidden: bool, begin: Instant,
                  clockFormat: Option<string>, now: real, termsize: int,
                  localTime: real -> ValidClock, encodable: char -> bool): (r: Result<(ProgressBar, Output), Crash>)
    requires 0 <= total
    ensures r.Ok? ==>
      && r.value.0.total == total && r.value.0.title == title && r.value.0.begin == begin
      && r.value.0.machine == machine && r.value.0.hide == hidden
      && (!r.value.0.ampm <==> !machine && clockFormat.Some? && 'a' !in clockFormat.value)
    ensures r.Ok? && !r.value.0.allowUnicode ==> !hidden && 0 < total && r.value.1.Commit?
    ensures var pb0 := ProgressBar(total, begin, title, machine, hidden, ClockPreference(machine, clockFormat), true);
      Tick(pb0, 0, now, termsize, localTime, encodable).Ok? ==>
        r == Ok((pb0, Tick(pb0, 0, now, termsize, localTime, encodable).value))
    ensures var pb0 := ProgressBar(total, begin, title, machine, hidden, ClockPreference(machine, clockFormat), true);
      r.Ok? && !r.value.0.allowUnicode ==> Tick(pb0, 0, now, termsize, localTime, encodable) == Err(UnicodeEncode)
    ensures var pb0 := ProgressBar(total, begin, title, machine, hidden, ClockPreference(machine, clockFormat), true);
      var line := "   0% done ETA " + PrettyTime(localTime(begin.seconds), pb0.ampm);
      Tick(pb0, 0, now, termsize, localTime, encodable) == Err(UnicodeEncode) ==>
        r == if Encodable(line, encodable) then Ok((pb0.(allowUnicode := false), Commit(line))) else Err(UnicodeEncode)
    ensures hidden ==> r.Ok? && r.value.0.allowUnicode && r.value.1 == Silent
    ensures !hidden && total == 0 ==> r == Err(ZeroDivision)
  {
    var pb := ProgressBar(total, begin, title, machine, hidden, ClockPreference(machine, clockFormat), true);
    match Tick(pb, 0, now, termsize, localTime, encodable)
    case Ok(out) => Ok((pb, out))
    case Err(ZeroDivision) => Err(ZeroDivision)
    case Err(UnicodeEncode) =>
      var newTime := PrettyTime(localTime(begin.seconds), pb.ampm);
      match Write("   0% done ETA " + newTime, true, encodable)
      case Ok(out) => Ok((pb.(allowUnicode := false), out))
      case Err(e) => Err(e)
  }

  // ----- properties of tick and construction -----

  predicate IsAscii(s: string) {
    forall i :: 0 <= i < |s| ==> s[i] as int < 128
  }

  lemma AsciiConcat(a: string, b: string)
    requires IsAscii(a) && IsAscii(b)
    ensures IsAscii(a + b)
  {
    forall i | 0 <= i < |a + b|
      ensures (a + b)[i] as int < 128
    {
      if i < |a| { assert (a + b)[i] == a[i]; } else { assert (a + b)[i] == b[i - |a|]; }
    }
  }

  lemma PrettyTimeAscii(c: WallClock, ampm: bool)
    requires c.Valid()
    ensures IsAscii(PrettyTime(c, ampm))
  {
    var r := PrettyTime(c, ampm);
    forall i | 0 <= i < |r|
      ensures r[i] as int < 128
    {
      if i < 2 { assert r[i] == r[..2][i]; }
      else if 3 <= i < 5 { assert r[i] == r[3..5][i - 3]; }
      else if 6 <= i { assert r[i] == r[6..][i - 6]; }
    }
  }

  lemma PercentTextAscii(t: int)
    requires 0 <= t <= 1000
    ensures IsAscii(PercentText(t))
  {
    if t < 1000 {
      var s := PercentText(t);
      forall i | 0 <= i < |s|
        ensures s[i] as int < 128
      {
        if i < |s| - 2 { assert s[i] == s[..|s| - 2][i]; }
      }
    }
  }

  /** Without the Unicode bar, a human-mode line is plain ASCII: the
      percentage and the ETA. */
  lemma PlainLineAscii(t: int, newTime: string)
    requires 0 <= t <= 1000 && IsAscii(newTime)
    ensures IsAscii(PlainLine(t, newTime))
  {
    PercentTextAscii(t);
    AsciiConcat("   ", PercentText(t));
    AsciiConcat("   " + PercentText(t), "% done ETA ");
    AsciiConcat("   " + PercentText(t) + "% done ETA ", newTime);
  }

  /** The machine record splits back at '~' into its five fields, the index
      reads back clamped to the total, and the total and the truncated ETA
      read back as written. */
  lemma MachineRecordFields(pb: ProgressBar, index: int, raw: int)
    requires Free(pb.title, '~') && Free(pb.begin.repr, '~')
    ensures var fields := Split(MachineRecord(pb, index, raw), '~');
      && |fields| == 5
      && fields[0] == pb.title
      && ParseInt(fields[1]) == Some(Min(index, pb.total))
      && ParseInt(fields[2]) == Some(pb.total)
      && fields[3] == pb.begin.repr
      && ParseInt(fields[4]) == Some(raw)
  {
    var parts := [pb.title, IntToString(Min(index, pb.total)), IntToString(pb.total), pb.begin.repr, IntToString(raw)];
    forall k | 0 <= k < |parts|
      ensures Free(parts[k], '~')
    {
    }
    SplitOfJoin(parts, '~');
    ParseIntOfIntToString(Min(index, pb.total));
    ParseIntOfIntToString(pb.total);
    ParseIntOfIntToString(raw);
  }

  /** In machine mode a tick prints the record: it succeeds exactly when the
      sink encodes the record, and then overwrites the line with it. The
      record splits back into its fields; the index it reports never exceeds
      the total, and at the last index the ETA it reports is the time of the
      call. */
  lemma TickMachineRecord(pb: ProgressBar, index: int, now: real, termsize: int,
                          localTime: real -> ValidClock, encodable: char -> bool)
    requires 0 < pb.total && 0 <= index && !pb.hide && pb.machine
    requires Free(pb.title, '~') && Free(pb.begin.repr, '~')
    ensures var line := MachineRecord(pb, index, Trunc(Eta(pb.begin.seconds, now, PercentTenths(index, pb.total))));
      Tick(pb, index, now, termsize, localTime, encodable)
        == if Encodable(line, encodable) then Ok(Overwrite(line)) else Err(UnicodeEncode)
    ensures var line := MachineRecord(pb, index, Trunc(Eta(pb.begin.seconds, now, PercentTenths(index, pb.total))));
      && |Split(line, '~')| == 5
      && Split(line, '~')[0] == pb.title
      && ParseInt(Split(line, '~')[1]) == Some(Min(index, pb.total))
      && ParseInt(Split(line, '~')[2]) == Some(pb.total)
      && Split(line, '~')[3] == pb.begin.repr
      && ParseInt(Split(line, '~')[4]) == Some(Trunc(Eta(pb.begin.seconds, now, PercentTenths(index, pb.total))))
      && Min(index, pb.total) <= pb.total
      && (pb.total <= index + 1 ==> ParseInt(Split(line, '~')[4]) == Some(Trunc(now)))
  {
    var t := PercentTenths(index, pb.total);
    var eta := Eta(pb.begin.seconds, now, t);
    MachineRecordFields(pb, index, Trunc(eta));
  }

  /** In human mode with the Unicode bar, a tick prints the drawn bar: it
      succeeds exactly when the sink encodes that line, and then overwrites
      the line with at most `termsize - 2` characters. */
  lemma TickBarFits(pb: ProgressBar, index: int, now: real, termsize: int,
                    localTime: real -> ValidClock, encodable: char -> bool)
    requires 0 < pb.total && 0 <= index && !pb.hide && !pb.machine && pb.allowUnicode
    requires 2 <= termsize
    ensures var t := PercentTenths(index, pb.total);
      var line := UnicodeLine(pb, t, PrettyTime(localTime(Eta(pb.begin.seconds, now, t)), pb.ampm), termsize);
      && Tick(pb, index, now, termsize, localTime, encodable)
           == (if Encodable(line, encodable) then Ok(Overwrite(line)) else Err(UnicodeEncode))
      && |line| <= termsize - 2
  {
  }

  /** At the last index the bar is entirely done glyphs and reads 100%. */
  lemma CompleteBarIsSolid(pb: ProgressBar, index: int, termsize: int)
    requires 0 < pb.total && pb.total <= index + 1
    ensures var barLen := BarLength(termsize, pb.title);
      && DoneGlyphs(PercentTenths(index, pb.total), barLen) == barLen
      && PercentText(PercentTenths(index, pb.total)) == "100"
  {
  }

  /** Once the Unicode bar is off, every human-mode tick commits a plain line
      of percentage and ETA, and a sink that encodes ASCII never fails on it. */
  lemma TickFallbackIsPlain(pb: ProgressBar, index: int, now: real, termsize: int,
                            localTime: real -> ValidClock, encodable: char -> bool)
    requires 0 < pb.total && 0 <= index && !pb.hide && !pb.machine && !pb.allowUnicode
    requires forall c: char :: c as int < 128 ==> encodable(c)
    ensures var t := PercentTenths(index, pb.total);
      var newTime := PrettyTime(localTime(Eta(pb.begin.seconds, now, t)), pb.ampm);
      Tick(pb, index, now, termsize, localTime, encodable) == Ok(Commit(PlainLine(t, newTime)))
  {
    var t := PercentTenths(index, pb.total);
    var newTime := PrettyTime(localTime(Eta(pb.begin.seconds, now, t)), pb.ampm);
    PrettyTimeAscii(localTime(Eta(pb.begin.seconds, now, t)), pb.ampm);
    PlainLineAscii(t, newTime);
  }

  /** Unless the terminal is too narrow to show it, the drawn bar carries
      the hourglass as its third character. */
  lemma UnicodeLineShowsHourglass(pb: ProgressBar, t: int, newTime: string, termsize: int)
    requires 0 <= t <= 1000 && 5 <= termsize
    ensures var line := UnicodeLine(pb, t, newTime, termsize); 3 <= |line| && line[2] == '⏳'
  {
    var line := UnicodeLine(pb, t, newTime, termsize);
    var barLen := BarLength(termsize, pb.title);
    var done := DoneGlyphs(t, barLen);
    var composed := Compose(pb.title, Repeat('█', done), Repeat('░', barLen - done), PercentText(t), newTime);
    assert composed[2] == '⏳';
    assert FitsLine(composed, line, termsize);
    if StartsWith(composed, line) {
      assert line == composed[..|line|];
    } else {
      assert composed == line[..|composed|];
    }
  }

  /** A human-mode tick with the Unicode bar fails on a sink that cannot
      encode the hourglass, when the terminal leaves room for it. */
  lemma TickRejectsHourglass(pb: ProgressBar, index: int, now: real, termsize: int,
                             localTime: real -> ValidClock, encodable: char -> bool)
    requires 0 < pb.total && 0 <= index && !pb.hide && !pb.machine && pb.allowUnicode
    requires 5 <= termsize && !encodable('⏳')
    ensures Tick(pb, index, now, termsize, localTime, encodable) == Err(UnicodeEncode)
  {
    var t := PercentTenths(index, pb.total);
    var newTime := PrettyTime(localTime(Eta(pb.begin.seconds, now, t)), pb.ampm);
    UnicodeLineShowsHourglass(pb, t, newTime, termsize);
    var line := UnicodeLine(pb, t, newTime, termsize);
    assert !encodable(line[2]);
  }

  /** The first render of a human-mode bar shows the hourglass whenever the
      terminal leaves room for it, so a sink that cannot encode it makes the
      constructor fall back: the bar it returns has the Unicode bar off and
      the line it printed is the plain 0% line. */
  lemma CreateFallsBack(total: int, title: string, begin: Instant, clockFormat: Option<string>,
                        now: real, termsize: int, localTime: real -> ValidClock, encodable: char -> bool)
    requires 0 < total && 5 <= termsize
    requires forall c: char :: c as int < 128 ==> encodable(c)
    requires !encodable('⏳')
    ensures var r := Create(total, title, false, false, begin, clockFormat, now, termsize, localTime, encodable);
      && r.Ok? && !r.value.0.allowUnicode
      && r.value.1 == Commit("   0% done ETA " + PrettyTime(localTime(begin.seconds), ClockPreference(false, clockFormat)))
  {
    var ampm := ClockPreference(false, clockFormat);
    var pb := ProgressBar(total, begin, title, false, false, ampm, true);
    TickRejectsHourglass(pb, 0, now, termsize, localTime, encodable);
    FallbackLineAscii(localTime(begin.seconds), ampm);
    AsciiWrites("   0% done ETA " + PrettyTime(localTime(begin.seconds), ampm), true, encodable);
    CreateAfterRejection(total, title, false, begin, clockFormat, now, termsize, localTime, encodable);
  }

  /** The line the constructor falls back to is plain ASCII. */
  lemma FallbackLineAscii(clock: ValidClock, ampm: bool)
    ensures IsAscii("   0% done ETA " + PrettyTime(clock, ampm))
  {
    PrettyTimeAscii(clock, ampm);
    AsciiConcat("   0% done ETA ", PrettyTime(clock, ampm));
  }

  /** When the first render fails to encode and the plain line does not,
      the constructor returns the bar with the Unicode bar off. This holds in
      machine mode too: a record the sink cannot encode is caught the same
      way. */
  lemma CreateAfterRejection(total: int, title: string, machine: bool, begin: Instant, clockFormat: Option<string>,
                             now: real, termsize: int, localTime: real -> ValidClock, encodable: char -> bool)
    requires 0 <= total
    requires var pb := ProgressBar(total, begin, title, machine, false, ClockPreference(machine, clockFormat), true);
      Tick(pb, 0, now, termsize, localTime, encodable) == Err(UnicodeEncode)
    requires var line := "   0% done ETA " + PrettyTime(localTime(begin.seconds), ClockPreference(machine, clockFormat));
      Write(line, true, encodable) == Ok(Commit(line))
    ensures var line := "   0% done ETA " + PrettyTime(localTime(begin.seconds), ClockPreference(machine, clockFormat));
      Create(total, title, machine, false, begin, clockFormat, now, termsize, localTime, encodable)
        == Ok((ProgressBar(total, begin, title, machine, false, ClockPreference(machine, clockFormat), false), Commit(line)))
  {
  }

  /** The record starts with the title. */
  lemma JoinStartsWithFirst(parts: seq<string>, sep: char)
    requires 1 <= |parts|
    ensures |parts[0]| <= |Join(parts, sep)| && Join(parts, sep)[..|parts[0]|] == parts[0]
  {
  }

  /** A machine-mode bar whose title the sink cannot encode fails its first
      record, so the constructor falls back exactly as a human-mode bar does:
      it prints the plain 0% line and turns the Unicode bar off. */
  lemma CreateMachineFallsBack(total: int, title: string, begin: Instant, clockFormat: Option<string>,
                               now: real, termsize: int, localTime: real -> ValidClock, encodable: char -> bool,
                               k: int)
    requires 0 < total
    requires forall c: char :: c as int < 128 ==> encodable(c)
    requires 0 <= k < |title| && !encodable(title[k])
    ensures var r := Create(total, title, true, false, begin, clockFormat, now, termsize, localTime, encodable);
      && r.Ok? && !r.value.0.allowUnicode && r.value.0.machine
      && r.value.1 == Commit("   0% done ETA " + PrettyTime(localTime(begin.seconds), true))
  {
    var pb := ProgressBar(total, begin, title, true, false, true, true);
    var t := PercentTenths(0, total);
    var eta := Eta(begin.seconds, now, t);
    var line := MachineRecord(pb, 0, Trunc(eta));
    JoinStartsWithFirst([pb.title, IntToString(Min(0, pb.total)), IntToString(pb.total), pb.begin.repr, IntToString(Trunc(eta))], '~');
    assert line[k] == title[k];
    assert !Encodable(line, encodable);
    assert Tick(pb, 0, now, termsize, localTime, encodable) == Err(UnicodeEncode);
    FallbackLineAscii(localTime(begin.seconds), true);
    AsciiWrites("   0% done ETA " + PrettyTime(localTime(begin.seconds), true), true, encodable);
    CreateAfterRejection(total, title, true, begin, clockFormat, now, termsize, localTime, encodable);
  }

  /** A sink that encodes ASCII writes every ASCII line. */
  lemma AsciiWrites(line: string, commit: bool, encodable: char -> bool)
    requires IsAscii(line)
    requires forall c: char :: c as int < 128 ==> encodable(c)
    ensures Write(line, commit, encodable) == Ok(if commit then Commit(line) else Overwrite(line))
  {
    assert Encodable(line, encodable);
  }
}

=== FILE: readme.dfy ===
/** The README pass of the `makedocs` command in setup.py, on the file's
    lines. The version badge is replaced by the badge of the new version, the
    "## New in" heading by the heading of the new version followed by its
    notes, bullet lines are dropped, and every other line is kept. The
    entries are written one per line and trailing newlines are stripped. */
module Readme {
  import opened Text

  const BadgePrefix: string := "<img src=\"" + "https://img.shields.io/" + "badge/version-"
  const HeadingPrefix: string := "## New in "
  const BulletPrefix: string := "* "

  /** How the pass treats a line, the tests taken in the order of the source. */
  datatype Kind = Badge | Heading | Bullet | Plain

  function KindOf(line: string): Kind {
    if StartsWith(line, BadgePrefix) then Badge
    else if StartsWith(line, HeadingPrefix) then Heading
    else if StartsWith(line, BulletPrefix) then Bullet
    else Plain
  }

  function NewBadge(vr: string): string {
    BadgePrefix + vr + "-blue.svg\">"
  }

  function NewHeading(vr: string, notes: string): string {
    HeadingPrefix + vr + notes
  }

  lemma NewEntryKinds(vr: string, notes: string)
    ensures KindOf(NewBadge(vr)) == Badge
    ensures KindOf(NewHeading(vr, notes)) == Heading
  {
    assert NewBadge(vr)[..|BadgePrefix|] == BadgePrefix;
    var h := NewHeading(vr, notes);
    assert h[..|HeadingPrefix|] == HeadingPrefix;
    assert h[0] == HeadingPrefix[0] == '#';
    assert BadgePrefix[0] == '<';
  }

  /** The lines of `lines` of the given kind, in order. */
  function OfKind(lines: seq<string>, k: Kind): (r: seq<string>)
    ensures |r| <= |lines|
  {
    if lines == [] then []
    else (if KindOf(lines[0]) == k then [lines[0]] else []) + OfKind(lines[1..], k)
  }

  /** The entries the pass appends to the new document, one per line it
      keeps. */
  function Entries(lines: seq<string>, vr: string, notes: string): (r: seq<string>)
    ensures |r| <= |lines|
    ensures forall k :: 0 <= k < |r| ==> KindOf(r[k]) != Bullet
    ensures forall k :: 0 <= k < |r| && KindOf(r[k]) == Badge ==> r[k] == NewBadge(vr)
    ensures forall k :: 0 <= k < |r| && KindOf(r[k]) == Heading ==> r[k] == NewHeading(vr, notes)
  {
    if lines == [] then []
    else
      var rest := Entries(lines[1..], vr, notes);
      NewEntryKinds(vr, notes);
      match KindOf(lines[0])
      case Badge => [NewBadge(vr)] + rest
      case Heading => [NewHeading(vr, notes)] + rest
      case Bullet => rest
      case Plain => [lines[0]] + rest
  }

  /** The pass works line by line: the entries of two blocks of lines are
      the entries of the first followed by those of the second, so each
      replacement stands where the line it replaces stood. */
  lemma {:induction false} EntriesConcat(a: seq<string>, b: seq<string>, vr: string, notes: string)
    ensures Entries(a + b, vr, notes) == Entries(a, vr, notes) + Entries(b, vr, notes)
  {
    if a == [] {
      assert a + b == b;
    } else {
      assert (a + b)[0] == a[0];
      assert (a + b)[1..] == a[1..] + b;
      EntriesConcat(a[1..], b, vr, notes);
    }
  }

  /** The entry of one line: the new badge for a badge line, the new heading
      for a heading line, nothing for a bullet and the line itself
      otherwise. */
  lemma EntriesOfLine(line: string, vr: string, notes: string)
    ensures KindOf(line) == Badge ==> Entries([line], vr, notes) == [NewBadge(vr)]
    ensures KindOf(line) == Heading ==> Entries([line], vr, notes) == [NewHeading(vr, notes)]
    ensures KindOf(line) == Bullet ==> Entries([line], vr, notes) == []
    ensures KindOf(line) == Plain ==> Entries([line], vr, notes) == [line]
  {
    assert [line][1..] == [];
  }

  /** The text written back: the entries, each ended by a newline, with the
      trailing newlines stripped. */
  function ReadmeText(lines: seq<string>, vr: string, notes: string): (r: string)
    ensures r == [] || r[|r| - 1] != '\n'
    ensures StartsWith(Terminate(Entries(lines, vr, notes)), r)
    ensures forall i :: |r| <= i < |Terminate(Entries(lines, vr, notes))| ==> Terminate(Entries(lines, vr, notes))[i] == '\n'
  {
    RStrip(Terminate(Entries(lines, vr, notes)), '\n')
  }

  /** Every plain line is kept verbatim and in order, and nothing else
      becomes a plain line. */
  lemma {:induction false} KeepsPlainLines(lines: seq<string>, vr: string, notes: string)
    ensures OfKind(Entries(lines, vr, notes), Plain) == OfKind(lines, Plain)
  {
    if lines != [] {
      KeepsPlainLines(lines[1..], vr, notes);
      NewEntryKinds(vr, notes);
      var rest := Entries(lines[1..], vr, notes);
      var r := Entries(lines, vr, notes);
      if KindOf(lines[0]) != Bullet {
        assert r[1..] == rest;
      }
    }
  }

  /** Each badge and each heading line is replaced by one new entry of the
      same kind, and every bullet line is dropped. */
  lemma {:induction false} ReplacesOneForOne(lines: seq<string>, vr: string, notes: string)
    ensures |OfKind(Entries(lines, vr, notes), Badge)| == |OfKind(lines, Badge)|
    ensures |OfKind(Entries(lines, vr, notes), Heading)| == |OfKind(lines, Heading)|
    ensures OfKind(Entries(lines, vr, notes), Bullet) == []
    ensures |Entries(lines, vr, notes)| == |lines| - |OfKind(lines, Bullet)|
  {
    if lines != [] {
      ReplacesOneForOne(lines[1..], vr, notes);
      NewEntryKinds(vr, notes);
      var rest := Entries(lines[1..], vr, notes);
      var r := Entries(lines, vr, notes);
      if KindOf(lines[0]) != Bullet {
        assert r[1..] == rest;
      }
    }
  }

  /** Running the pass again for the same version changes nothing more. */
  lemma {:induction false} EntriesIdempotent(lines: seq<string>, vr: string, notes: string)
    ensures Entries(Entries(lines, vr, notes), vr, notes) == Entries(lines, vr, notes)
  {
    if lines != [] {
      EntriesIdempotent(lines[1..], vr, notes);
      NewEntryKinds(vr, notes);
      var rest := Entries(lines[1..], vr, notes);
      var r := Entries(lines, vr, notes);
      if KindOf(lines[0]) != Bullet {
        assert r[1..] == rest;
      }
    }
  }
}

=== FILE: results.dfy ===
/** Failure-carrying values used throughout the model: `Option` for a lookup
    that may find nothing, `Result` for an operation that either produces a
    value or stops with one of the source's error conditions. */
module Results {

  datatype Option<+T> = None | Some(value: T)

  datatype Result<+T, +E> = Ok(value: T) | Err(error: E)
}

=== FILE: sentinel.dfy ===
/** `fNone` of auto_editor/usefulFunctions.py: the option values that mean
    "no value". */
module Sentinel {

  /** A Python value as `fNone` sees it: None, a string, or anything else. */
  datatype PyValue = PyNone | PyStr(text: string) | PyOther

  /** The three values that mean "no value". */
  const Sentinels: set<PyValue> := {PyNone, PyStr("none"), PyStr("unset")}

  /** `fNone(val)`: `val == 'none' or val == 'unset' or val is None`. The
      comparison is exact, so "None" or "NONE" are ordinary strings. */
  function FNone(v: PyValue): (r: bool)
    ensures r <==> v in Sentinels
  {
    match v
    case PyNone => true
    case PyStr(t) => t == "none" || t == "unset"
    case PyOther => false
  }
}

=== FILE: text.dfy ===
/** String helpers with Python's meaning: `str.startswith`, `c * n`,
    `str(int)`, `int(str)`, `str.split(sep)`, `sep.join`, `str.replace`,
    `str.rstrip(c)` and `str.count`, for the cases the modelled code uses.
    Strings are sequences of Unicode scalar values, as Python's are of
    code points. */
module Text {
  import opened Results

  predicate StartsWith(s: string, prefix: string) {
    |prefix| <= |s| && s[..|prefix|] == prefix
  }

  /** Python's `c * n`: n copies of c, and the empty string when n <= 0. */
  function Repeat(c: char, n: int): (r: string)
    ensures |r| == if n > 0 then n else 0
    ensures forall i :: 0 <= i < |r| ==> r[i] == c
  {
    if n <= 0 then "" else seq(n, _ => c)
  }

  predicate IsDigit(c: char) {
    '0' <= c <= '9'
  }

  predicate AllDigits(s: string) {
    forall i :: 0 <= i < |s| ==> IsDigit(s[i])
  }

  function DigitChar(d: int): (c: char)
    requires 0 <= d < 10
    ensures IsDigit(c)
  {
    ('0' as int + d) as char
  }

  function DigitValue(c: char): (d: int)
    requires IsDigit(c)
    ensures 0 <= d < 10 && DigitChar(d) == c
  {
    c as int - '0' as int
  }

  /** Python's `str(n)` for a non-negative int: decimal digits without
      leading zeros. */
  function NatToString(n: nat): (r: string)
    ensures 1 <= |r| && AllDigits(r)
    ensures |r| > 1 ==> r[0] != '0'
  {
    if n < 10 then [DigitChar(n)] else NatToString(n / 10) + [DigitChar(n % 10)]
  }

  /** The value of a string of decimal digits, most significant first. */
  function DigitsValue(s: string): nat
    requires AllDigits(s)
  {
    if s == [] then 0 else DigitsValue(s[..|s| - 1]) * 10 + DigitValue(s[|s| - 1])
  }

  lemma {:induction false} DigitsValueOfNatToString(n: nat)
    ensures DigitsValue(NatToString(n)) == n
  {
    if n >= 10 {
      DigitsValueOfNatToString(n / 10);
      var s := NatToString(n);
      assert s[..|s| - 1] == NatToString(n / 10);
    }
  }

  /** Python's `str(i)` (and `f'{i}'`) for an int. */
  function IntToString(i: int): (r: string)
    ensures 1 <= |r|
    ensures forall k :: 0 <= k < |r| ==> IsDigit(r[k]) || (k == 0 && r[k] == '-')
  {
    if i < 0 then "-" + NatToString(-i) else NatToString(i)
  }

  /** Python's `int(s)` for an optional sign followed by ASCII digits;
      `None` stands for the ValueError raised on anything else. */
  function ParseInt(s: string): Option<int> {
    if 2 <= |s| && (s[0] == '-' || s[0] == '+') && AllDigits(s[1..]) then
      Some(if s[0] == '-' then -(DigitsValue(s[1..]) as int) else DigitsValue(s[1..]))
    else if 1 <= |s| && AllDigits(s) then
      Some(DigitsValue(s))
    else
      None
  }

  /** Reading back what `str` wrote gives the same int. */
  lemma ParseIntOfIntToString(i: int)
    ensures ParseInt(IntToString(i)) == Some(i)
  {
    if i < 0 {
      DigitsValueOfNatToString(-i);
      assert IntToString(i)[1..] == NatToString(-i);
    } else {
      DigitsValueOfNatToString(i);
    }
  }

  predicate Free(s: string, c: char) {
    forall j :: 0 <= j < |s| ==> s[j] != c
  }

  /** Python's `s.split(sep)` for a one-character separator: the pieces
      between separators, empty pieces included, always at least one. */
  function Split(s: string, sep: char): (r: seq<string>)
    ensures 1 <= |r|
    ensures forall k :: 0 <= k < |r| ==> Free(r[k], sep)
  {
    if s == [] then [""]
    else if s[0] == sep then [""] + Split(s[1..], sep)
    else
      var rest := Split(s[1..], sep);
      [[s[0]] + rest[0]] + rest[1..]
  }

  /** Python's `sep.join(parts)`. */
  function Join(parts: seq<string>, sep: char): string {
    if parts == [] then ""
    else if |parts| == 1 then parts[0]
    else parts[0] + [sep] + Join(parts[1..], sep)
  }

  lemma {:induction false} SplitWithoutSeparator(s: string, sep: char)
    requires Free(s, sep)
    ensures Split(s, sep) == [s]
  {
    if s != [] {
      SplitWithoutSeparator(s[1..], sep);
      assert [s[0]] + s[1..] == s;
    }
  }

  /** A separator cuts the string into the pieces of its two sides. */
  lemma {:induction false} SplitAtSeparator(a: string, b: string, sep: char)
    ensures Split(a + [sep] + b, sep) == Split(a, sep) + Split(b, sep)
  {
    if a == [] {
      assert a + [sep] + b == [sep] + b;
      assert ([sep] + b)[1..] == b;
    } else {
      var s := a + [sep] + b;
      assert s[0] == a[0] && s[1..] == a[1..] + [sep] + b;
      SplitAtSeparator(a[1..], b, sep);
      var left := Split(a[1..], sep);
      var rest := Split(s[1..], sep);
      assert rest == left + Split(b, sep);
      if a[0] == sep {
        assert Split(s, sep) == [""] + rest;
        assert Split(a, sep) == [""] + left;
      } else {
        assert rest[0] == left[0];
        assert rest[1..] == left[1..] + Split(b, sep);
        assert Split(s, sep) == [[a[0]] + left[0]] + rest[1..];
        assert Split(a, sep) == [[a[0]] + left[0]] + left[1..];
      }
    }
  }

  /** Splitting what `join` built recovers the parts, when no part holds the
      separator. */
  lemma {:induction false} SplitOfJoin(parts: seq<string>, sep: char)
    requires 1 <= |parts|
    requires forall k :: 0 <= k < |parts| ==> Free(parts[k], sep)
    ensures Split(Join(parts, sep), sep) == parts
  {
    if |parts| == 1 {
      SplitWithoutSeparator(parts[0], sep);
    } else {
      SplitOfJoin(parts[1..], sep);
      SplitAtSeparator(parts[0], Join(parts[1..], sep), sep);
      SplitWithoutSeparator(parts[0], sep);
      assert parts == [parts[0]] + parts[1..];
    }
  }

  /** Python's `s.replace(pat, rep)`: every occurrence of pat, found left to
      right without overlap, becomes rep. */
  function ReplaceAll(s: string, pat: string, rep: string): string
    requires |pat| > 0
    decreases |s|
  {
    if s == [] then []
    else if StartsWith(s, pat) then rep + ReplaceAll(s[|pat|..], pat, rep)
    else [s[0]] + ReplaceAll(s[1..], pat, rep)
  }

  /** Python's `s.count(c)` for one character. */
  function Count(s: string, c: char): nat {
    if s == [] then 0 else (if s[0] == c then 1 else 0) + Count(s[1..], c)
  }

  lemma {:induction false} CountConcat(a: string, b: string, c: char)
    ensures Count(a + b, c) == Count(a, c) + Count(b, c)
  {
    if a == [] {
      assert a + b == b;
    } else {
      assert (a + b)[1..] == a[1..] + b;
      CountConcat(a[1..], b, c);
    }
  }

  /** Python's `s.rstrip(c)` for one character: the longest prefix of s that
      does not end in c, everything cut off being c. */
  function RStrip(s: string, c: char): (r: string)
    ensures StartsWith(s, r)
    ensures r == [] || r[|r| - 1] != c
    ensures forall i :: |r| <= i < |s| ==> s[i] == c
  {
    if s != [] && s[|s| - 1] == c then RStrip(s[..|s| - 1], c) else s
  }

  /** The text `for line in lines: doc += line + '\n'` accumulates. */
  function Terminate(lines: seq<string>): string {
    if lines == [] then "" else lines[0] + "\n" + Terminate(lines[1..])
  }

  lemma {:induction false} TerminateConcat(a: seq<string>, b: seq<string>)
    ensures Terminate(a + b) == Terminate(a) + Terminate(b)
  {
    if a == [] {
      assert a + b == b;
    } else {
      assert (a + b)[1..] == a[1..] + b;
      TerminateConcat(a[1..], b);
    }
  }
}

=== FILE: version.dfy ===
/** `numToNormal` of setup.py: the pip version "year.week.n.x" becomes the
    project's own version name "yearwweek" followed by the n-th lower-case
    letter, so "20.10.1.0" is "20w10a". `ParseNormal` reads such a name back
    into its three parts. */
module Version {
  import opened Results
  import opened Text

  /** The Python exception that stops the conversion. */
  datatype VersionError =
    | IndexError  // fewer than three fields, or a letter index outside the alphabet
    | ValueError  // the third field is not an integer

  /** The letter at place k of `string.ascii_lowercase`, "a" to "z". */
  function Letter(k: int): (c: char)
    requires 0 <= k < 26
    ensures 'a' <= c <= 'z' && c as int - 'a' as int == k
  {
    ('a' as int + k) as char
  }

  /** `alphabet[k]` with Python's indexing: a negative k counts from the end,
      anything outside -26..25 is an IndexError. */
  function LetterAt(k: int): (r: Result<char, VersionError>)
    ensures r.Ok? <==> -26 <= k < 26
    ensures r.Ok? ==> 'a' <= r.value <= 'z' && r.value as int - 'a' as int == k % 26
    ensures r.Err? ==> r.error == IndexError
  {
    if 0 <= k < 26 then Ok(Letter(k))
    else if -26 <= k < 0 then Ok(Letter(26 + k))
    else Err(IndexError)
  }

  /** `numToNormal`: split at '.', then field 0, "w", field 1 and the letter
      at `int(field 2) - 1`. Python evaluates the pieces left to right, so a
      missing field is found before the third field is read as a number. */
  function NumToNormal(text: string): (r: Result<string, VersionError>)
    ensures var fields := Split(text, '.');
      r.Ok? <==> 3 <= |fields| && ParseInt(fields[2]).Some? && -25 <= ParseInt(fields[2]).value <= 26
    ensures var fields := Split(text, '.');
      r.Err? ==> (r.error == ValueError <==> 3 <= |fields| && ParseInt(fields[2]).None?)
    ensures var fields := Split(text, '.');
      r.Ok? ==> && |r.value| == |fields[0]| + |fields[1]| + 2
                && StartsWith(r.value, fields[0] + "w" + fields[1])
                && 'a' <= r.value[|r.value| - 1] <= 'z'
                && r.value[|r.value| - 1] as int - 'a' as int == (ParseInt(fields[2]).value - 1) % 26
  {
    var fields := Split(text, '.');
    if |fields| < 3 then Err(IndexError)
    else
      match ParseInt(fields[2])
      case None => Err(ValueError)
      case Some(n) =>
        match LetterAt(n - 1)
        case Err(e) => Err(e)
        case Ok(letter) =>
          var r := fields[0] + "w" + fields[1] + [letter];
          assert r[..|fields[0] + "w" + fields[1]|] == fields[0] + "w" + fields[1];
          Ok(r)
  }

  /** The release this setup script builds. */
  const PipVersion: string := "20.33.1.0"

  lemma SplitThree(a: string, b: string, c: string)
    requires Free(a, '.') && Free(b, '.') && Free(c, '.')
    ensures Split(a + "." + b + "." + c, '.') == [a, b, c]
  {
    var tail := b + ['.'] + c;
    SplitAtSeparator(b, c, '.');
    SplitAtSeparator(a, tail, '.');
    assert a + "." + b + "." + c == a + ['.'] + tail;
    SplitWithoutSeparator(a, '.');
    SplitWithoutSeparator(b, '.');
    SplitWithoutSeparator(c, '.');
  }

  lemma SplitFour(a: string, b: string, c: string, d: string)
    requires Free(a, '.') && Free(b, '.') && Free(c, '.') && Free(d, '.')
    ensures Split(a + "." + b + "." + c + "." + d, '.') == [a, b, c, d]
  {
    var head := a + "." + b + "." + c;
    SplitThree(a, b, c);
    SplitAtSeparator(head, d, '.');
    assert head + "." + d == head + ['.'] + d;
    SplitWithoutSeparator(d, '.');
  }

  /** A four-field version whose third field is "1" converts to the
      year, 'w', the week and 'a'. */
  lemma FirstReleaseOfWeek(year: string, week: string, build: string)
    requires Free(year, '.') && Free(week, '.') && Free(build, '.')
    ensures NumToNormal(year + "." + week + "." + "1" + "." + build) == Ok(year + "w" + week + "a")
  {
    SplitFour(year, week, "1", build);
    ParseIntOfIntToString(1);
    assert IntToString(1) == "1";
    assert LetterAt(0) == Ok('a');
  }

  /** The first release of any week of 2020. */
  lemma FirstOfWeekTwenty(week: string)
    requires Free(week, '.')
    ensures NumToNormal("20." + week + ".1.0") == Ok("20w" + week + "a")
  {
    var year, build := "20", "0";
    assert Free(year, '.') && Free(build, '.');
    FirstReleaseOfWeek(year, week, build);
    assert year + "." + week + "." + "1" + "." + build == "20." + week + ".1.0";
    assert year + "w" + week + "a" == "20w" + week + "a";
  }

  /** The example of the doc comment. */
  lemma NumToNormalExample()
    ensures NumToNormal("20.10.1.0") == Ok("20w10a")
  {
    assert Free("10", '.');
    FirstOfWeekTwenty("10");
    assert "20." + "10" + ".1.0" == "20.10.1.0";
    assert "20w" + "10" + "a" == "20w10a";
  }

  /** The version this script ships. */
  lemma PipVersionName()
    ensures NumToNormal(PipVersion) == Ok("20w33a")
  {
    assert Free("33", '.');
    FirstOfWeekTwenty("33");
    assert "20." + "33" + ".1.0" == PipVersion;
    assert "20w" + "33" + "a" == "20w33a";
  }

  /** The letter for n: the n-th letter for n in 1..26, 'z' for 0 (Python's
      index -1), and counting back from 'z' for negative n down to -25. */
  lemma LetterForNumber(n: int)
    requires -25 <= n <= 26
    ensures LetterAt(n - 1).Ok?
    ensures 1 <= n ==> LetterAt(n - 1).value as int == 'a' as int + n - 1
    ensures n == 0 ==> LetterAt(n - 1).value == 'z'
    ensures n < 0 ==> LetterAt(n - 1).value as int == 'z' as int + n
  {
    if n >= 1 {
      assert (n - 1) % 26 == n - 1;
    } else {
      assert (n - 1) % 26 == n + 25;
    }
  }

  /** Only the first three fields matter: whatever follows the third dot is
      ignored. */
  lemma NumToNormalIgnoresTail(year: string, week: string, n: string, rest: string)
    requires Free(year, '.') && Free(week, '.') && Free(n, '.')
    ensures NumToNormal(year + "." + week + "." + n + "." + rest) == NumToNormal(year + "." + week + "." + n)
  {
    var head := year + "." + week + "." + n;
    SplitAtSeparator(head, rest, '.');
    assert head + "." + rest == head + ['.'] + rest;
    SplitThree(year, week, n);
    var fields := Split(head + "." + rest, '.');
    assert fields[..3] == [year, week, n];
  }

  /** The position of the first c in s, if there is one. */
  function FirstIndex(s: string, c: char): (r: Option<nat>)
    ensures r.None? ==> Free(s, c)
    ensures r.Some? ==> r.value < |s| && s[r.value] == c && Free(s[..r.value], c)
  {
    if s == [] then None
    else if s[0] == c then Some(0)
    else
      match FirstIndex(s[1..], c)
      case None => None
      case Some(k) =>
        assert s[..k + 1] == [s[0]] + s[1..][..k];
        Some(k + 1)
  }

  lemma FirstIndexAfterFree(a: string, b: string, c: char)
    requires Free(a, c)
    ensures FirstIndex(a + [c] + b, c) == Some(|a|)
  {
    var s := a + [c] + b;
    assert s[|a|] == c && s[..|a|] == a;
    assert forall j :: 0 <= j < |a| ==> s[..j] == a[..j];
  }

  /** Reads a converted name back: the year up to the first 'w', the week up
      to the final letter, and the letter's place in the alphabet. */
  function ParseNormal(name: string): (r: Option<(string, string, int)>)
    ensures r.Some? ==> 1 <= r.value.2 <= 26 && Free(r.value.0, 'w')
    ensures r.Some? ==> name == r.value.0 + "w" + r.value.1 + [Letter(r.value.2 - 1)]
  {
    if |name| < 2 || !('a' <= name[|name| - 1] <= 'z') then None
    else
      var body := name[..|name| - 1];
      match FirstIndex(body, 'w')
      case None => None
      case Some(k) =>
        var n := name[|name| - 1] as int - 'a' as int + 1;
        assert body == body[..k] + "w" + body[k + 1..];
        assert name == body + [name[|name| - 1]];
        Some((body[..k], body[k + 1..], n))
  }

  /** The name of a three-field version whose number is in 1..26. */
  lemma NumToNormalOfParts(year: string, week: string, n: int)
    requires Free(year, '.') && Free(week, '.')
    requires 1 <= n <= 26
    ensures NumToNormal(year + "." + week + "." + IntToString(n)) == Ok(year + "w" + week + [Letter(n - 1)])
  {
    var ns := IntToString(n);
    assert Free(ns, '.');
    SplitThree(year, week, ns);
    ParseIntOfIntToString(n);
  }

  lemma ParseNormalOfName(year: string, week: string, n: int)
    requires Free(year, 'w')
    requires 1 <= n <= 26
    ensures ParseNormal(year + "w" + week + [Letter(n - 1)]) == Some((year, week, n))
  {
    var name := year + "w" + week + [Letter(n - 1)];
    var body := year + "w" + week;
    assert name[..|name| - 1] == body;
    assert body == year + ['w'] + week;
    FirstIndexAfterFree(year, week, 'w');
    assert body[..|year|] == year && body[|year| + 1..] == week;
  }

  /** Converting and reading back recovers the year, the week and the
      number, as long as the year holds no 'w' and the number is in 1..26. */
  lemma ParseNormalOfNumToNormal(year: string, week: string, n: int)
    requires Free(year, '.') && Free(week, '.') && Free(year, 'w')
    requires 1 <= n <= 26
    ensures NumToNormal(year + "." + week + "." + IntToString(n)).Ok?
    ensures ParseNormal(NumToNormal(year + "." + week + "." + IntToString(n)).value) == Some((year, week, n))
  {
    NumToNormalOfParts(year, week, n);
    ParseNormalOfName(year, week, n);
  }

  /** Reading a name back and converting its parts again gives the same
      name: the two directions are inverse on every name that reads back. */
  lemma NumToNormalOfParseNormal(name: string)
    requires ParseNormal(name).Some?
    requires Free(ParseNormal(name).value.0, '.') && Free(ParseNormal(name).value.1, '.')
    ensures var (year, week, n) := ParseNormal(name).value;
      NumToNormal(year + "." + week + "." + IntToString(n)) == Ok(name)
  {
    var (year, week, n) := ParseNormal(name).value;
    NumToNormalOfParts(year, week, n);
  }
}
